=== FILE: README.md ===
# soo-ri core in Dafny

This project models the decision logic of soo-ri, a web app for users of electric mobility aids. It proves properties of that model. The model covers:

- **The dual-axis report classifier.** A user's weekly distance and trend give a mobility status (`active`, `stable`, `declining`, `inactive`). The device's repair and self-check history, together with the user's distance, give a risk score. The risk score gives a condition grade (`A`, `B`, `C`) with a recommendation and an evidence sentence. The legacy adapter feeds old flat report metadata into the same classifier.
- **The two report pages.** The first version computes a 0–100 health score and colours it. The second version splits the recommended services into a mobility list and a welfare list, picks the usage caption, and decides whether to show the week-over-week badge.
- **The phone sign-in store.** It covers digit sanitising, phone-number and 6-digit code validation, the 300-second code expiry and the 30-second resend cooldown, the derived enable flags and messages, the `m:ss` display, and the request, verify, init and reset transitions.
- **The repairs list.** It covers the keyword filter, the stable newest-first sort, the repair count and this month's price total.
- **The new-repair form.** It covers digit-only price parsing, the per-field updates and the validity predicate that gates submitting.
- **The twelve-question vehicle questionnaire.**
- **The immutable domain records.** These are the user, repair, self-check and welfare-report records: defaulting constructors, `copyWith` and the role and trend predicates.
- **Routing.** It covers `buildRoute` and the redirect decision of `ProtectedRoute`.

One module per source file. `Nullish` and `Text` hold the JavaScript semantics the others share:

- `??`;
- object spread, where a key that is left out differs from a key that is present but `undefined`;
- `replace`, `includes`, `indexOf`, `join`, `padStart`, `String(n)`, `parseInt`.

Design choices:

- **Time.** Dates are integer timestamps. `new Date()` defaults take the clock as a parameter `now`. The local (year, month) of a timestamp is a function parameter `localMonth`, because the time zone is outside the model.
- **Intervals.** `setInterval` and `clearInterval` are a "running" flag per interval, and each firing is an explicit tick operation.
- **Asynchronous operations.** `requestVerification` and `verifyCode` are split at their `await`. The outcome of the remote call is a parameter of the second half.
- **Numbers.** `weeklyKm` is a `real` and counts are `nat`. Prices and timestamps are `int`.

Routing to the sign-in page:

- `ProtectedRoute` redirects to a `SIGN_IN` route, but `ROUTES` in routes.ts declares only `HOME`, `REPAIRS` and `KAKAO`. That redirect is therefore modelled as an outcome naming the sign-in page, not as a built URL.

## Model

| member | source | states |
|---|---|---|
| DualAxisReportModel.MobilityStatusConfigInjective | src/domain/models/dual_axis_report_model.ts:130-142 | Active is green '활발', stable blue '안정', declining yellow '감소 중' and inactive red '비활동', each with an empty icon; so no two statuses share a colour or a label. |
| DualAxisReportModel.DeviceGradeConfigInjective | src/domain/models/dual_axis_report_model.ts:144-155 | Grade A is green '양호', B yellow '점검 권장' and C red '주의 필요', each with an empty icon; so the grades have distinct colours and labels and none is blue. |
| DualAxisReportModel.TrendFromString | src/domain/logic/analyzeDualMetrics.ts:214-217 | The unchecked cast keeps the string. The result is an undeclared trend exactly when the string is not one of the three names. |
| DualAxisReportModel.TrendNameRoundTrip | src/domain/models/dual_axis_report_model.ts:23 | Casting a trend's name back yields the same trend. |
| AnalyzeDualMetrics.Promote | src/domain/logic/analyzeDualMetrics.ts:43-48 | Promotion raises the rank by exactly one step, capped at active. |
| AnalyzeDualMetrics.MobilityStatusOf | src/domain/logic/analyzeDualMetrics.ts:26-48 | ≥30 km is always active. With `increase`: active iff ≥3 km, else declining. Otherwise: active iff ≥30, inactive iff <3, declining iff 3..10 km with `decrease`. |
| AnalyzeDualMetrics.IncreasePromotesOnce | src/domain/logic/analyzeDualMetrics.ts:43-48 | `increase` gives exactly one step above the band status, capped at active. Every other trend leaves the band status unchanged. |
| AnalyzeDualMetrics.StatusMonotoneInDistance | src/domain/logic/analyzeDualMetrics.ts:28-48 | More weekly distance never lowers the status, whatever the trend. |
| AnalyzeDualMetrics.StatusMonotoneInTrend | src/domain/logic/analyzeDualMetrics.ts:34-48 | At equal distance `decrease` ≤ `stable` ≤ `increase` in rank. An undeclared trend, including any string cast in other than the three names, classifies like `stable`. |
| AnalyzeDualMetrics.MobilityEvidenceOf | src/domain/logic/analyzeDualMetrics.ts:55-63 | No-record iff the distance is 0, even with a negative delta. Otherwise the variant follows the sign of the delta and carries distance and delta. |
| AnalyzeDualMetrics.AnalyzeUserMobility | src/domain/logic/analyzeDualMetrics.ts:22-76 | Status and its table entry. Delta plus the previous distance (default 0) equals this week's distance. Trend is passed through; active days default to 0; the evidence variant matches. |
| AnalyzeDualMetrics.UsageIntensityOf | src/domain/logic/analyzeDualMetrics.ts:87-95 | High iff ≥50 km, medium iff 20..50, low iff <20. |
| AnalyzeDualMetrics.RiskScore | src/domain/logic/analyzeDualMetrics.ts:102-122 | The score is 0 iff no repairs, at least one self-check and at most 30 days since the last one. It lies between 20·repairs and 20·repairs + 50. |
| AnalyzeDualMetrics.RiskMonotoneInRepairs | src/domain/logic/analyzeDualMetrics.ts:105 | Each extra repair adds exactly 20 to the score. |
| AnalyzeDualMetrics.RiskMonotoneInChecks | src/domain/logic/analyzeDualMetrics.ts:108-122 | More self-checks never raise the score. A longer gap since the last check never lowers it. |
| AnalyzeDualMetrics.GradeOf | src/domain/logic/analyzeDualMetrics.ts:125-140 | A iff risk ≤10, B iff 10<risk≤30, C iff risk>30. |
| AnalyzeDualMetrics.GradeMonotone | src/domain/logic/analyzeDualMetrics.ts:125-140 | A higher risk never gives a better grade. |
| AnalyzeDualMetrics.RecommendationOf | src/domain/logic/analyzeDualMetrics.ts:125-140 | Each grade has its own recommendations. B recommends checking battery and tyres iff usage is high. C recommends a professional inspection iff there were repairs. |
| AnalyzeDualMetrics.EvidenceClauses | src/domain/logic/analyzeDualMetrics.ts:145-159 | A repairs clause iff repairs > 0, and it comes first. Exactly one self-check clause, "completed n" iff n > 0. A trailing high-usage clause iff intensity is high. |
| AnalyzeDualMetrics.ClauseText | src/domain/logic/analyzeDualMetrics.ts:148-158 | Every clause has a non-empty text; ClauseTextInjective ties each text to its clause. |
| AnalyzeDualMetrics.InfixCancel | src/domain/logic/analyzeDualMetrics.ts:148-158 | Text between a fixed prefix and a fixed suffix is determined by the whole. |
| AnalyzeDualMetrics.ClauseTextInjective | src/domain/logic/analyzeDualMetrics.ts:148-158 | Different clauses give different texts: the wording tells the four kinds apart, and the count in a repairs or self-check clause reads back. |
| AnalyzeDualMetrics.EvidenceTextCons | src/domain/logic/analyzeDualMetrics.ts:161 | The evidence sentence is the first clause, " · ", then the sentence of the rest. |
| AnalyzeDualMetrics.AnalyzeDeviceCondition | src/domain/logic/analyzeDualMetrics.ts:82-176 | Days default to 30 and the cumulative distance to 0. Intensity comes from the user's distance and the grade from the risk score. The table entry, counts, recommendation and evidence clauses are stated as above. |
| AnalyzeDualMetrics.DeviceGradeClosedForm | src/domain/logic/analyzeDualMetrics.ts:102-140 | The grade without the score: A iff no repairs, a self-check and ≤60 days. C in exactly the listed repair/self-check/days/usage cases. |
| AnalyzeDualMetrics.GradeMonotoneInRepairs | src/domain/logic/analyzeDualMetrics.ts:105-140 | More repairs, all else equal, never improve the grade. |
| AnalyzeDualMetrics.AxesIndependent | src/domain/logic/analyzeDualMetrics.ts:182-195 | The mobility axis ignores the device. The device axis reads the user only through the weekly distance. |
| AnalyzeDualMetrics.LegacyFillsDefaults | src/domain/logic/analyzeDualMetrics.ts:205-225 | The legacy adapter equals the classifier with previous distance 0, active days 0, 30 days since the last check and 0 cumulative km. |
| AnalyzeDualMetrics.LegacyGrade | src/domain/logic/analyzeDualMetrics.ts:205-225 | On the legacy path: grade A iff no repairs and at least one self-check. Grade C implies a repair and a professional-inspection recommendation. |
| AnalyzeDualMetrics.LegacyUncheckedTrendActsStable | src/domain/logic/analyzeDualMetrics.ts:214-217 | A legacy trend outside the three names classifies as `stable` does, and is reported back unchanged. |
| AnalyzeDualMetrics.Scenarios | src/domain/logic/analyzeDualMetrics.ts:22-195 | Worked cases: 40 km stable is active with medium use and grade A; 60 km with a repair and 70 days is C with risk 70; zero distance is inactive with no record. |
| WelfareReportModel.FromInput | src/domain/models/welfare_report_model.ts:36-50 | Every missing field gets its default: '' strings, no services, not a fallback, the clock. Missing metadata, or a missing key in it, gets 0 km, 'stable', 0, 0 and '성동구'. Supplied values are kept. |
| WelfareReportModel.FromInputRoundTrip | src/domain/models/welfare_report_model.ts:36-50 | Supplying every field reproduces the report, whatever the clock says. |
| WelfareReportModel.FromEmptyInput | src/domain/models/welfare_report_model.ts:36-50 | An empty literal gives the all-default report stamped with the clock. |
| WelfareReportModel.TrendDisplayString | src/domain/models/welfare_report_model.ts:60-67 | 'increase' shows '증가 추세 📈', 'decrease' '감소 추세 📉' and 'stable' '안정 유지 ➡️', each iff the trend is that name. The fallback '데이터 없음' shows exactly for every other string. |
| WelfareReportModel.TrendDescription | src/domain/models/welfare_report_model.ts:69-76 | 'increase', 'decrease' and 'stable' each give their own sentence ('최근 이동량이 증가하고 있습니다', '최근 이동량이 감소하고 있습니다', '최근 7일간 이동량이 일정합니다'), each iff the trend is that name. '이동 데이터가 충분하지 않습니다' is given exactly for every other string. |
| WelfareReportModel.TrendTextsDistinct | src/domain/models/welfare_report_model.ts:60-76 | For the three trend names, display and description identify the trend. |
| WelfareReportModel.PrototypeKeyEscapesFallback | src/domain/models/welfare_report_model.ts:60-67 | As written, trend "toString" yields the inherited member instead of the fallback text. |
| WelfareReportModel.ShowTrendAgrees | src/domain/models/welfare_report_model.ts:60-76 | For every key that is not an inherited member name, the lookup as written and the corrected lookup agree. |
| WelfareReportView.DistanceBonus | src/presentation/pages/WelfareReportPage/WelfareReportPageViewMobile.tsx:22-29 | +30 iff 30..70 km, +20 iff >70, +15 iff 10<km<30, 0 iff ≤10. |
| WelfareReportView.TrendBonus | src/presentation/pages/WelfareReportPage/WelfareReportPageViewMobile.tsx:32-34 | +20 iff "stable", +15 iff "increase", and exactly 10 for every other string. |
| WelfareReportView.SelfCheckBonus | src/presentation/pages/WelfareReportPage/WelfareReportPageViewMobile.tsx:38 | Two points per self-check, at most 10. |
| WelfareReportView.Clamp | src/presentation/pages/WelfareReportPage/WelfareReportPageViewMobile.tsx:40 | The result is in 0..100; values in range are kept and values outside are cut to the nearer bound. |
| WelfareReportView.HealthScore | src/presentation/pages/WelfareReportPage/WelfareReportPageViewMobile.tsx:15-43 | The score is always in 0..100. With no report it is 0. Otherwise it is the clamped sum of the bonuses less 5 per repair. |
| WelfareReportView.HealthScoreMonotone | src/presentation/pages/WelfareReportPage/WelfareReportPageViewMobile.tsx:37-38 | More repairs never raise the score; more self-checks never lower it. |
| WelfareReportView.HealthScoreRange | src/presentation/pages/WelfareReportPage/WelfareReportPageViewMobile.tsx:15-41 | No repairs gives at least 60. The ideal distance with a stable trend, five self-checks and ≤2 repairs gives 100. A score of 0 needs at least 12 repairs. |
| WelfareReportView.ScoreColorOf | src/presentation/pages/WelfareReportPage/WelfareReportPageViewMobile.tsx:44 | Green iff ≥80, yellow iff 60..80, red iff <60. |
| WelfareReportView.DualAxisData | src/presentation/pages/WelfareReportPage/WelfareReportPageViewMobileV2.tsx:40-43 | Analysis data exists exactly when a report does. |
| WelfareReportView.Tagged | src/presentation/pages/WelfareReportPage/WelfareReportPageViewMobileV2.tsx:57-60 | The spread copy keeps name, reason and link and sets the new category. |
| WelfareReportView.CategorizeServices | src/presentation/pages/WelfareReportPage/WelfareReportPageViewMobileV2.tsx:46-65 | No report gives two empty lists. Otherwise the loop gives the welfare services, in order and tagged `device`, and all others, in order and tagged `mobility`. |
| WelfareReportView.PartitionSizes | src/presentation/pages/WelfareReportPage/WelfareReportPageViewMobileV2.tsx:49-64 | The two lists' lengths add up to the input's. Every welfare entry is `device` and every other entry is `mobility`. |
| WelfareReportView.ContentsAppend | src/presentation/pages/WelfareReportPage/WelfareReportPageViewMobileV2.tsx:52-62 | The contents of a concatenation are the concatenated contents. |
| WelfareReportView.PartitionPreservesContent | src/presentation/pages/WelfareReportPage/WelfareReportPageViewMobileV2.tsx:52-62 | The two lists together hold exactly the input's (name, reason, link) triples, with multiplicity. |
| WelfareReportView.UsageIntensityCaption | src/presentation/pages/WelfareReportPage/WelfareReportPageViewMobileV2.tsx:100-106 | "사용량 높음" iff high, "보통 사용" iff medium, "사용량 적음" iff low. |
| WelfareReportView.UsageIntensityCaptionInjective | src/presentation/pages/WelfareReportPage/WelfareReportPageViewMobileV2.tsx:100-106 | Different intensities get different captions. |
| WelfareReportView.DeltaBadgeOf | src/presentation/pages/WelfareReportPage/WelfareReportPageViewMobileV2.tsx:124-128 | A badge iff the delta is non-zero; it points up iff the delta is positive, and shows the delta's absolute value. |
| WelfareReportView.PageBadgeAndCaption | src/presentation/pages/WelfareReportPage/WelfareReportPageViewMobileV2.tsx:40-128 | On the page the delta is the whole weekly distance. So the badge shows iff the distance is non-zero, and "사용량 높음" shows iff it is ≥50 km. |
| SignInStore.WithoutDashes | src/presentation/pages/SignInPage/SignInPageViewModel.ts:33 | No dash remains and nothing is added. |
| SignInStore.WithoutDashesContents | src/presentation/pages/SignInPage/SignInPageViewModel.ts:33 | Every character other than a dash is kept exactly as often as it occurs. |
| SignInStore.WithoutDashesAppend | src/presentation/pages/SignInPage/SignInPageViewModel.ts:33 | Removing dashes works piecewise, so the kept characters stay in order; a single character is kept iff it is not a dash. |
| SignInStore.WithoutDashesNoDash | src/presentation/pages/SignInPage/SignInPageViewModel.ts:33 | A string without dashes is unchanged. |
| SignInStore.ValidPhoneNumber | src/presentation/pages/SignInPage/SignInPageViewModel.ts:32-34 | The corrected phone check implies a digit-only number that the check as written also accepts. |
| SignInStore.ValidPhoneNumberOfDigits | src/presentation/pages/SignInPage/SignInPageViewModel.ts:32-34 | For digit strings: valid iff 10 or 11 digits, starting "01", third digit in 0,1,6,7,8,9. |
| SignInStore.PipeAcceptedAsWritten | src/presentation/pages/SignInPage/SignInPageViewModel.ts:33 | The pattern as written accepts "01|" followed by seven digits; the corrected check rejects it. |
| SignInStore.PhonePatternsAgreeOnDigits | src/presentation/pages/SignInPage/SignInPageViewModel.ts:33 | On digit-only strings the two checks agree. |
| SignInStore.ErrorMessage | src/presentation/pages/SignInPage/SignInPageViewModel.ts:60-65 | Expiry wins over any stored error. Otherwise the stored error's text, or none. |
| SignInStore.ErrorMessagesDistinct | src/presentation/pages/SignInPage/SignInPageViewModel.ts:60-154 | Before expiry the message identifies the stored error and is never the expiry text. |
| SignInStore.ExpiredBlocksVerify | src/presentation/pages/SignInPage/SignInPageViewModel.ts:44-79 | Expired: cannot verify, not valid, expiry message. Verified: cannot verify again and no countdown is active. Loading: neither request nor verify. |
| SignInStore.ExpirationDisplay | src/presentation/pages/SignInPage/SignInPageViewModel.ts:81-86 | At least four characters, with the colon third from the end. |
| SignInStore.ExpirationScreenReaderText | src/presentation/pages/SignInPage/SignInPageViewModel.ts:88-93 | Longer than its "남음" suffix; ExpirationScreenReaderReadBack reads the minutes and seconds back. |
| SignInStore.ExpirationScreenReaderReadBack | src/presentation/pages/SignInPage/SignInPageViewModel.ts:88-93 | The text is a digit text reading as the whole minutes, "분 ", an unpadded digit text reading as the remaining seconds, then "초 남음". |
| SignInStore.UnitSplit | src/presentation/pages/SignInPage/SignInPageViewModel.ts:92 | The first non-digit ends the minutes, so the text splits into minutes and seconds in one way only. |
| SignInStore.ExpirationScreenReaderInjective | src/presentation/pages/SignInPage/SignInPageViewModel.ts:88-93 | Different remaining times are read out differently. |
| SignInStore.DecimalValueLeadingZero | src/presentation/pages/SignInPage/SignInPageViewModel.ts:84 | A leading zero does not change a decimal value. |
| SignInStore.PaddedSeconds | src/presentation/pages/SignInPage/SignInPageViewModel.ts:84 | Seconds below 60 pad to exactly two digits that read back as the seconds. |
| SignInStore.ExpirationDisplayReadBack | src/presentation/pages/SignInPage/SignInPageViewModel.ts:81-86 | The display splits into a digit text reading as the whole minutes, a colon, and exactly two digits reading as the remaining seconds. |
| SignInStore.ColonSplit | src/presentation/pages/SignInPage/SignInPageViewModel.ts:84-85 | A text ending in a colon and a two-character field splits in one way only. |
| SignInStore.ExpirationDisplayInjective | src/presentation/pages/SignInPage/SignInPageViewModel.ts:81-86 | Different remaining times show different texts. |
| SignInStore.FullExpirationDisplay | src/presentation/pages/SignInPage/SignInPageViewModel.ts:10-86 | 300 seconds shows as "5:00". |
| SignInStore.UpdatePhoneNumber | src/presentation/pages/SignInPage/SignInPageViewModel.ts:95-97 | Only the phone number changes, to the input's digits in order. |
| SignInStore.UpdatePhoneNumberIdempotent | src/presentation/pages/SignInPage/SignInPageViewModel.ts:95-97 | Re-entering the stored number changes nothing, and on it both phone checks agree. |
| SignInStore.UpdateVerificationCode | src/presentation/pages/SignInPage/SignInPageViewModel.ts:99-104 | The code is the first min(n, 6) of the input's n digits. It is valid iff the input holds ≥6 digits. The error is cleared and nothing else changes. |
| SignInStore.StartTimer | src/presentation/pages/SignInPage/SignInPageViewModel.ts:178-182 | A running 300-second countdown replaces any other; nothing else changes. |
| SignInStore.StartCooldown | src/presentation/pages/SignInPage/SignInPageViewModel.ts:191-195 | A running 30-second cooldown replaces any other; nothing else changes. |
| SignInStore.DecrementTimer | src/presentation/pages/SignInPage/SignInPageViewModel.ts:162-168 | One second off while positive; at zero only the interval stops. |
| SignInStore.DecrementCooldown | src/presentation/pages/SignInPage/SignInPageViewModel.ts:170-176 | One second off while positive; at zero only the interval stops. |
| SignInStore.TimerCountsDown | src/presentation/pages/SignInPage/SignInPageViewModel.ts:162-189 | After n ≤ t ticks a running countdown at t shows t−n and still runs; more ticks leave it at 0 and stopped. Nothing else changes. |
| SignInStore.StoppedTimerStays | src/presentation/pages/SignInPage/SignInPageViewModel.ts:184-189 | A stopped countdown ignores ticks. |
| SignInStore.CodeExpiresAfterFiveMinutes | src/presentation/pages/SignInPage/SignInPageViewModel.ts:52-182 | From a fresh start the code is expired after 300 ticks and not after 299; after 301 the expiry message shows. |
| SignInStore.BeginRequest | src/presentation/pages/SignInPage/SignInPageViewModel.ts:106-114 | A refused request changes nothing. An accepted one clears code, error and verification and marks the store busy, so neither request nor verify is possible. |
| SignInStore.CompleteRequest | src/presentation/pages/SignInPage/SignInPageViewModel.ts:119-130 | Never busy afterwards. Success: a code is requested, the expiry restarts at 300 and the cooldown at 30 with both intervals running, and nothing else changes, so no new request is possible. Failure: only the request error is stored. |
| SignInStore.BeginVerify | src/presentation/pages/SignInPage/SignInPageViewModel.ts:133-137 | Proceeds iff a code may be verified, then only busy is set; refused leaves the store as it is. |
| SignInStore.CompleteVerify | src/presentation/pages/SignInPage/SignInPageViewModel.ts:138-159 | Returns true and verified iff the call did not throw. Then only the countdown stops, verified is set, loading is cleared and, when a user was returned, the error is cleared; nothing else changes. A thrown call stores the rejection error and sets verified to false, and nothing else changes. |
| SignInStore.VerifiedIsValid | src/presentation/pages/SignInPage/SignInPageViewModel.ts:56-160 | A confirmed code leaves a valid store that cannot verify again. |
| SignInStore.Cleanup | src/presentation/pages/SignInPage/SignInPageViewModel.ts:216-219 | Both intervals stop; nothing else changes. |
| SignInStore.Init | src/presentation/pages/SignInPage/SignInPageViewModel.ts:204-214 | The countdown restarts at 300 iff a code is outstanding, unverified and unexpired. The cooldown restarts at 30 iff time remains on it. Only the two countdowns and their running flags change; every other field is untouched. |
| SignInStore.Reset | src/presentation/pages/SignInPage/SignInPageViewModel.ts:221-232 | Every field is back at its initial value and both intervals are stopped. |
| SignInStore.StepPreservesInv | src/presentation/pages/SignInPage/SignInPageViewModel.ts:14-232 | The initial store satisfies the invariant and every operation or tick preserves it. The invariant: digit-only phone, digit-only code of ≤6, counters within their start values. |
| SignInStore.InputPreservesInv | src/presentation/pages/SignInPage/SignInPageViewModel.ts:95-104 | Both input handlers keep the store invariant. |
| SignInStore.IntervalsPreserveInv | src/presentation/pages/SignInPage/SignInPageViewModel.ts:162-232 | The interval ticks, mounting, unmounting and `reset` keep the store invariant. |
| SignInStore.RequestPreservesInv | src/presentation/pages/SignInPage/SignInPageViewModel.ts:106-131 | Both halves of the code request keep the store invariant. |
| SignInStore.VerifyPreservesInv | src/presentation/pages/SignInPage/SignInPageViewModel.ts:133-160 | Both halves of the code confirmation keep the store invariant. |
| SignInStore.ReachablePhoneCheckAgrees | src/presentation/pages/SignInPage/SignInPageViewModel.ts:33-97 | On every reachable store the phone check as written and the corrected one agree. |
| RepairsPage.FilterRepairs | src/presentation/pages/RepairsPage/RepairsPageViewModel.ts:38-42 | A repair is kept iff it is in the list and matches, and a matching repair is kept as many times as it occurs; FilterCons and FilterAtTime fix the order. |
| RepairsPage.FilterCons | src/presentation/pages/RepairsPage/RepairsPageViewModel.ts:38-42 | The first repair is kept, in front, iff it matches; the rest is filtered the same way. |
| RepairsPage.FilterAtTime | src/presentation/pages/RepairsPage/RepairsPageViewModel.ts:38-42 | The repairs of one time come out of the filter in the order they go in. |
| RepairsPage.PageKeepsStoreOrder | src/presentation/pages/RepairsPage/RepairsPageViewModel.ts:38-43 | On the page, the matching repairs of one time appear in the store's order. |
| RepairsPage.FilterEmptyKeyword | src/presentation/pages/RepairsPage/RepairsPageViewModel.ts:40 | An empty keyword keeps every repair in order. |
| RepairsPage.FilterByKeyword | src/presentation/pages/RepairsPage/RepairsPageViewModel.ts:41 | A non-empty keyword keeps exactly the repairs whose type or shop name contains it. |
| RepairsPage.SortedCons | src/presentation/pages/RepairsPage/RepairsPageViewModel.ts:43 | A repair no older than the head of a sorted list keeps it sorted. |
| RepairsPage.Insert | src/presentation/pages/RepairsPage/RepairsPageViewModel.ts:43 | Insertion keeps the list sorted and adds exactly that repair. |
| RepairsPage.SortNewestFirst | src/presentation/pages/RepairsPage/RepairsPageViewModel.ts:43 | The sort gives a newest-first permutation. |
| RepairsPage.AtTimeCons | src/presentation/pages/RepairsPage/RepairsPageViewModel.ts:43 | A repair in front belongs to the front of its time's run and to no other run. |
| RepairsPage.InsertAtTime | src/presentation/pages/RepairsPage/RepairsPageViewModel.ts:43 | Insertion puts the repair at the front of its own time's run and touches no other time. |
| RepairsPage.InsertBehind | src/presentation/pages/RepairsPage/RepairsPageViewModel.ts:43 | A repair that stays behind a strictly newer head leaves the head's run where it was. |
| RepairsPage.SortIsStable | src/presentation/pages/RepairsPage/RepairsPageViewModel.ts:43 | Repairs with equal times keep their relative order. |
| RepairsPage.FilteredRepairs | src/presentation/pages/RepairsPage/RepairsPageViewModel.ts:37-44 | Newest first, a permutation of the filtered list, and holding exactly the matching repairs. |
| RepairsPage.NoKeywordShowsAll | src/presentation/pages/RepairsPage/RepairsPageViewModel.ts:39-40 | With no keyword the list is a permutation of all repairs. |
| RepairsPage.CalculateTotalRepairsCount | src/presentation/pages/RepairsPage/RepairsPageViewModel.ts:126-128 | The count is the number of repairs and no other field changes. |
| RepairsPage.SumInMonthNone | src/presentation/pages/RepairsPage/RepairsPageViewModel.ts:130-141 | With no repair in the month the total is 0. |
| RepairsPage.SumInMonthAppend | src/presentation/pages/RepairsPage/RepairsPageViewModel.ts:130-141 | The monthly total is additive over concatenation. |
| RepairsPage.CalculateRepairPriceSumThisMonth | src/presentation/pages/RepairsPage/RepairsPageViewModel.ts:130-141 | The loop computes the sum of the prices of repairs in the current month; no other field changes. |
| RepairsPage.UpdateSearchKeyword | src/presentation/pages/RepairsPage/RepairsPageViewModel.ts:54-56 | Only the keyword changes, and the list then holds exactly the repairs matching it. |
| RepairsPage.ChangeTab | src/presentation/pages/RepairsPage/RepairsPageViewModel.ts:58-60 | Only the tab changes, and the list is the same. |
| RepairCreate.UpdateType | src/presentation/pages/RepairCreatePage/RepairCreatePageViewModel.ts:22-28 | A kind stores its name. Clearing the type stores "" through the constructor's default, so the form is invalid. Nothing else changes. |
| RepairCreate.ParsePrice | src/presentation/pages/RepairCreatePage/RepairCreatePageViewModel.ts:31-32 | No digits gives price 0. |
| RepairCreate.UpdatePrice | src/presentation/pages/RepairCreatePage/RepairCreatePageViewModel.ts:30-39 | Only the price changes, and it is never negative. |
| RepairCreate.UpdatePriceReadsNumber | src/presentation/pages/RepairCreatePage/RepairCreatePageViewModel.ts:30-39 | A number's decimal text, with non-digits around it, sets the price to that number. |
| RepairCreate.NoDigitsKept | src/presentation/pages/RepairCreatePage/RepairCreatePageViewModel.ts:31 | Text without digits filters to nothing. |
| RepairCreate.UpdatePriceAppendDigit | src/presentation/pages/RepairCreatePage/RepairCreatePageViewModel.ts:30-39 | Typing one more digit gives ten times the price plus the digit. |
| RepairCreate.AppendDigitValue | src/presentation/pages/RepairCreatePage/RepairCreatePageViewModel.ts:30-39 | One more digit on a decimal text multiplies its value by ten and adds the digit. |
| RepairCreate.UpdateProblem | src/presentation/pages/RepairCreatePage/RepairCreatePageViewModel.ts:41-47 | Only the problem text changes. |
| RepairCreate.UpdateAction | src/presentation/pages/RepairCreatePage/RepairCreatePageViewModel.ts:49-55 | Only the action text changes. |
| RepairCreate.FillingTheForm | src/presentation/pages/RepairCreatePage/RepairCreatePageViewModel.ts:16-55 | After all four updates the form is valid iff the price parses positive and both texts are non-empty. |
| RepairCreate.SubmitRepair | src/presentation/pages/RepairCreatePage/RepairCreatePageViewModel.ts:57-68 | An invalid form is a no-op. A valid one resets to the initial repair and navigates. |
| RepairCreate.SubmitOnce | src/presentation/pages/RepairCreatePage/RepairCreatePageViewModel.ts:8-68 | It navigates iff the form is valid. The form after submitting is invalid, so submitting again does nothing. |
| VehicleTest.InitialItems | src/presentation/pages/VehicleTestPage/VehicleTestPageViewModel.ts:29-92 | Twelve items; item k has id k+1, the k-th question and no answer. |
| VehicleTest.InitiallyUnanswered | src/presentation/pages/VehicleTestPage/VehicleTestPageViewModel.ts:18-92 | A fresh questionnaire is not complete. |
| VehicleTest.FindIndex | src/presentation/pages/VehicleTestPage/VehicleTestPageViewModel.ts:23 | `find` returns the first item with the id, or none when no item has it. |
| VehicleTest.SetAnswer | src/presentation/pages/VehicleTestPage/VehicleTestPageViewModel.ts:22-27 | Only the first item with the id gets the answer; an unknown id changes nothing. |
| VehicleTest.SetAnswerKeepsAnswers | src/presentation/pages/VehicleTestPage/VehicleTestPageViewModel.ts:18-27 | No answer is ever cleared, so a complete questionnaire stays complete. |
| VehicleTest.SetAnswerOnInitial | src/presentation/pages/VehicleTestPage/VehicleTestPageViewModel.ts:22-92 | On the fresh questionnaire, id k answers exactly item k. |
| VehicleTest.AnsweringTheLastQuestionCompletes | src/presentation/pages/VehicleTestPage/VehicleTestPageViewModel.ts:18-27 | With distinct ids, answering the only open item completes the questionnaire. |
| UserModel.FromInput | src/domain/models/user_model.ts:28-38 | Missing fields default to '' strings, role 'user', no guardians, 'general' and the clock. Supplied values are kept. |
| UserModel.FromInputRoundTrip | src/domain/models/user_model.ts:28-38 | Supplying every field reproduces the user. |
| UserModel.FromEmptyInput | src/domain/models/user_model.ts:28-38 | An empty literal gives the default user. |
| UserModel.PredicatesExclusive | src/domain/models/user_model.ts:40-62 | At most one role predicate holds, and none holds exactly for a plain user. The recipient predicates exclude each other. Has-guardians iff the list is non-empty. |
| UserModel.CopyWith | src/domain/models/user_model.ts:64-71 | Each field comes from the changes when given, is kept when left out, and resets to its default when present but undefined. Dates are replaced only by a given date. |
| UserModel.CopyWithNoChanges | src/domain/models/user_model.ts:64-71 | `copyWith({})` preserves the user. |
| UserModel.CopyWithEverything | src/domain/models/user_model.ts:64-71 | Giving every field yields exactly the given user. |
| UserModel.CopyWithIdempotent | src/domain/models/user_model.ts:64-71 | The same changes applied twice equal them applied once. |
| UserModel.CopyWithUndefinedResets | src/domain/models/user_model.ts:32-71 | An undefined role or guardian list resets it to its default, while an undefined date keeps the old one. |
| RepairModel.CategoryKeysComplete | src/domain/models/repair_model.ts:13-24 | Nine keys listing every category exactly once; keys and labels identify their category. |
| RepairModel.FromInput | src/domain/models/repair_model.ts:55-68 | Missing fields default to '' strings, price 0, no categories and the clock. Supplied values are kept. |
| RepairModel.FromInputRoundTrip | src/domain/models/repair_model.ts:55-68 | Supplying every field reproduces the repair. The empty literal gives the all-default repair. |
| RepairModel.CopyWith | src/domain/models/repair_model.ts:82-88 | Each field is given, kept or reset as for users. `repairedAt` is replaced only by a given date. |
| RepairModel.CopyWithNoChanges | src/domain/models/repair_model.ts:82-88 | `copyWith({})` preserves the repair, and giving every field replaces it. |
| RepairModel.CopyWithOneField | src/domain/models/repair_model.ts:82-88 | Changing the price or the problem changes only that field. An undefined `repairedAt` keeps the date. |
| SelfCheckModel.FromInput | src/domain/models/self_check_model.ts:52-72 | The id defaults to '' and both dates to the clock. |
| SelfCheckModel.FromInputFlag | src/domain/models/self_check_model.ts:54-69 | A flag is its supplied value, false included, or false when missing. |
| SelfCheckModel.FromInputFlags | src/domain/models/self_check_model.ts:54-69 | The same for all sixteen flags at once. |
| SelfCheckModel.FromEmptyInput | src/domain/models/self_check_model.ts:52-72 | An empty literal raises no issue. |
| SelfCheckModel.FromInputRoundTrip | src/domain/models/self_check_model.ts:52-72 | Supplying every field reproduces the record. |
| SelfCheckModel.CopyWith | src/domain/models/self_check_model.ts:74-81 | The id is given, kept or reset. Dates are replaced only by a given date. |
| SelfCheckModel.CopyWithFlag | src/domain/models/self_check_model.ts:74-81 | One flag is given, kept or reset to false. |
| SelfCheckModel.CopyWithFlags | src/domain/models/self_check_model.ts:74-81 | Exactly the flags mentioned in the changes change. |
| SelfCheckModel.CopyWithNoChanges | src/domain/models/self_check_model.ts:74-81 | `copyWith({})` preserves the record. |
| SelfCheckModel.CopyWithEverything | src/domain/models/self_check_model.ts:74-81 | Giving every field replaces the record. |
| SelfCheckModel.CopyWithOneFlag | src/domain/models/self_check_model.ts:74-81 | Setting one flag leaves the other fifteen, the id and the dates as they were. |
| Routes.RoutePathsDistinct | src/application/routers/routes.ts:1-5 | Every path is absolute and no two routes share one. |
| Routes.QueryPiece | src/application/routers/routes.ts:26 | The encoded key, "=", then the encoded value; never empty. |
| Routes.QueryPieces | src/application/routers/routes.ts:25-26 | One `key=value` piece per entry, in entry order. |
| Routes.QueryStringEmpty | src/application/routers/routes.ts:25-29 | The query string is empty iff there are no query parameters. |
| Routes.QueryStringSnoc | src/application/routers/routes.ts:25-27 | One more entry appends "&key=value". |
| Routes.BuildRoute | src/application/routers/routes.ts:14-34 | No query gives the filled-in path alone. Otherwise the path, "?" and the pieces joined with "&". |
| Routes.PathParamReplacesFirstOnly | src/application/routers/routes.ts:21-23 | A path parameter replaces only the first ":key". |
| Routes.NoPlaceholderUnchanged | src/application/routers/routes.ts:21-23 | A path without ':' is unchanged by path parameters. |
| Routes.BuildRouteStartsWithPath | src/application/routers/routes.ts:1-34 | With the current table the url starts with the route's path, followed by nothing or by "?" and the query. |
| Routes.RepairsRoute | src/application/routers/routes.ts:3-34 | `buildRoute('REPAIRS')` is "/repairs". |
| ProtectedRoute.Decide | src/application/routers/ProtectedRoutes.tsx:26-72 | Exactly one outcome applies. Loading renders nothing. Auth required and no role redirects to sign-in with the current page. Not required with a role redirects to a usable `from`, else to the repairs list with the query. Otherwise the children render. |
| ProtectedRoute.SignInRoundTrip | src/application/routers/ProtectedRoutes.tsx:52-66 | After the sign-in redirect, a user who signs in is sent back to the page and search they asked for. |
| ProtectedRoute.SignedInVisitorGoesToRepairs | src/application/routers/ProtectedRoutes.tsx:62-69 | Without a usable `from`, a signed-in user is redirected to a url that starts with "/repairs". |
| Text.KeepDigits | src/presentation/pages/SignInPage/SignInPageViewModel.ts:96 | The filter's result is digits only and no longer than the input. |
| Text.KeepDigitsAppend | src/presentation/pages/SignInPage/SignInPageViewModel.ts:96 | Filtering distributes over concatenation, so order is kept. |
| Text.KeepDigitsContents | src/presentation/pages/SignInPage/SignInPageViewModel.ts:96 | Every digit is kept as often as it occurs, and nothing else is kept. |
| Text.KeepDigitsIdempotent | src/presentation/pages/SignInPage/SignInPageViewModel.ts:96 | Filtering twice is filtering once. |
| Text.KeepDigitsOfDigits | src/presentation/pages/RepairCreatePage/RepairCreatePageViewModel.ts:31 | A digit-only string passes the filter unchanged. |
| Text.NatToString | src/presentation/pages/SignInPage/SignInPageViewModel.ts:82 | `toString` of a non-negative integer: at least one digit, no leading zero, and one digit exactly for numbers below 10; DecimalValueOfNatToString reads it back. |
| Text.PadStart | src/presentation/pages/SignInPage/SignInPageViewModel.ts:83 | The result has the target length (or the input's, if longer), ends with the input, and is filled with the pad character before it. |
| Text.DecimalValueOfNatToString | src/presentation/pages/RepairCreatePage/RepairCreatePageViewModel.ts:32 | Parsing the decimal text of n gives n. |
| Text.IndexOf | src/application/routers/routes.ts:22 | The first index where the pattern occurs: it occurs there and nowhere before; none iff it occurs nowhere. |
| Text.Contains | src/presentation/pages/RepairsPage/RepairsPageViewModel.ts:41 | `includes` holds iff the pattern occurs at some index. |
| Text.ReplaceFirst | src/application/routers/routes.ts:22 | A string pattern that does not occur leaves the string unchanged. Otherwise only its first occurrence is replaced. |
| Text.Join | src/application/routers/routes.ts:27 | No parts join to the empty string, and one part joins to itself. |
| Text.JoinNonEmpty | src/application/routers/routes.ts:25-29 | A join of non-empty pieces is empty iff there are no pieces. |
| Nullish.Merge | src/domain/models/user_model.ts:64-67 | A spread key left out keeps the old value, one present but undefined gets the constructor's default, and a given one wins. |
| Nullish.Override | src/domain/models/user_model.ts:68-69 | A given date replaces the old one; otherwise the old one stays. |

## Left out

- Rendering: the styled components and JSX of the page files, except the functions above.
- I/O and foreign calls:
  - the repositories and HTTP services;
  - the query hooks;
  - Firebase phone authentication, which becomes an outcome parameter;
  - `alert`, `navigate` (a returned flag), `console.error`, and MobX/jotai reactivity.
- The real clock: `new Date()` and `setInterval` are parameters and explicit ticks.
- Number and date formatting (`toFixed`, `toLocaleString`, `toLocaleDateString`). Mobility evidence is a variant carrying the raw numbers, and recommendations are variants with their texts.
- Icons: the status and grade icons are the empty strings the tables hold.
- `priceDisplayString`, `totalRepairsCountDisplayString` and `repairPriceSumThisMonthDisplayString`: locale formatting only.
- `verificationCodeLength` is only ever 6, so it is the constant.
- The `'+82'` phone formatting inside `requestVerification` is only handed to Firebase.
- `parseInt` beyond exact integers: for more digits than a double holds exactly, JavaScript rounds and the model does not.
- `String.replace` replacement patterns (`$&`, `$1`): the replacement is taken literally. An `encodeURIComponent` result never holds `$`.
- `encodeURIComponent` is a function parameter.
- `Object.entries` order is taken as the given sequence, including the engine's rule that integer-like keys come first.
- Parsing the search string with `URLSearchParams` is left out; the query parameters arrive as entries.
- `ProtectedRoute` names a sign-in route that `ROUTES` does not declare. The redirect is the outcome `RedirectToSignIn`, not a built url.
- `RepairsStore` sample data (`loadSampleData`), the vehicle record and its model: fixtures and locale strings.
- The repair-stations sort: it depends on locale comparison and float distances.
- The self-check detail page: it reads counters that the self-check record does not have.
- The V2 page's rewriting of the summary text: cosmetic regular-expression replacements.
- The loading indicator effect in `ProtectedRoute`.
- SelfCheckModel.FromInput: its contract states the id and the dates; the sixteen flags are stated by FromInputFlag and FromInputFlags.
- SelfCheckModel.CopyWith: its contract states the id and the dates; the flags are stated by CopyWithFlag and CopyWithFlags.
- SignInStore.ValidPhoneNumber: its contract states one direction for arbitrary strings. The full characterisation is ValidPhoneNumberOfDigits, which covers digit strings, the only ones the store can hold.

## Findings

| source | as written | input that shows it | evidently intended | confidence | as-written member | corrected member |
|---|---|---|---|---|---|---|
| src/presentation/pages/SignInPage/SignInPageViewModel.ts:33 | The character class `[0\|1\|6\|7\|8\|9]` also lists the pipe character. | "01\|1234567" passes the pattern. `updatePhoneNumber` strips every non-digit, so the input can only reach the check through a direct assignment. | The third character is one of the digits 0, 1, 6, 7, 8, 9. | not executed | SignInStore.PipeAcceptedAsWritten | SignInStore.ValidPhoneNumber |
| src/domain/models/welfare_report_model.ts:60-76 | `trendMap[trend] ?? fallback` on an object literal also finds inherited `Object.prototype` members. | Trend "toString" yields a function, not '데이터 없음'. | Any string other than the three trend names shows the fallback text. | not executed | WelfareReportModel.PrototypeKeyEscapesFallback | WelfareReportModel.TrendDisplayString |

=== FILE: analyze_dual_metrics.dfy ===
/**
 The dual-axis classifier: a user's weekly distance and trend give a mobility
 status; a device's repair and self-check history, together with the user's
 distance, give a risk score and from it a condition grade.
 */
module AnalyzeDualMetrics {
  import opened Nullish
  import opened Text
  import opened DualAxisReportModel

  // ---------------------------------------------------------------------------
  // User mobility
  // ---------------------------------------------------------------------------

  /** The ordering inactive < declining < stable < active. */
  function Rank(s: MobilityStatus): nat
  {
    match s
    case Inactive => 0
    case Declining => 1
    case Stable => 2
    case Active => 3
  }

  /** Status from the distance bands; only `decrease` matters, in the 3..10 band. */
  function BaseStatus(weeklyKm: real, trend: TrendDirection): MobilityStatus
  {
    if weeklyKm >= 30.0 then Active
    else if weeklyKm >= 10.0 then MobilityStatus.Stable
    else if weeklyKm >= 3.0 then (if trend == Decrease then Declining else MobilityStatus.Stable)
    else Inactive
  }

  /** One step up the ordering, never past active. */
  function Promote(s: MobilityStatus): (r: MobilityStatus)
    ensures Rank(r) == if Rank(s) == 3 then 3 else Rank(s) + 1
  {
    match s
    case Inactive => Declining
    case Declining => MobilityStatus.Stable
    case _ => Active
  }

  /** The final status: the base status, promoted once when the trend is `increase`. */
  function MobilityStatusOf(weeklyKm: real, trend: TrendDirection): (r: MobilityStatus)
    ensures weeklyKm >= 30.0 ==> r == Active
    ensures trend == Increase ==> (r == Active <==> weeklyKm >= 3.0)
    ensures trend == Increase && weeklyKm < 3.0 ==> r == Declining
    ensures trend != Increase ==> (r == Active <==> weeklyKm >= 30.0)
    ensures trend != Increase ==> (r == Inactive <==> weeklyKm < 3.0)
    ensures trend != Increase ==> (r == Declining <==> 3.0 <= weeklyKm < 10.0 && trend == Decrease)
  {
    var base := BaseStatus(weeklyKm, trend);
    if trend == Increase && base != Active then Promote(base) else base
  }

  /** With trend `increase` the status is exactly one step above the base status, capped at active. */
  lemma IncreasePromotesOnce(weeklyKm: real)
    ensures Rank(MobilityStatusOf(weeklyKm, Increase))
         == if Rank(BaseStatus(weeklyKm, Increase)) == 3 then 3 else Rank(BaseStatus(weeklyKm, Increase)) + 1
    ensures forall t :: t != Increase ==> MobilityStatusOf(weeklyKm, t) == BaseStatus(weeklyKm, t)
  {
  }

  /** More distance never lowers the status. */
  lemma StatusMonotoneInDistance(km1: real, km2: real, trend: TrendDirection)
    requires km1 <= km2
    ensures Rank(MobilityStatusOf(km1, trend)) <= Rank(MobilityStatusOf(km2, trend))
  {
  }

  /** At equal distance `decrease` ranks no higher than `stable`, which ranks no higher than `increase`;
      an undeclared trend string behaves as `stable`. */
  lemma StatusMonotoneInTrend(weeklyKm: real, raw: string)
    ensures Rank(MobilityStatusOf(weeklyKm, Decrease)) <= Rank(MobilityStatusOf(weeklyKm, TrendDirection.Stable))
    ensures Rank(MobilityStatusOf(weeklyKm, TrendDirection.Stable)) <= Rank(MobilityStatusOf(weeklyKm, Increase))
    ensures MobilityStatusOf(weeklyKm, Unchecked(raw)) == MobilityStatusOf(weeklyKm, TrendDirection.Stable)
    ensures raw !in {"increase", "stable", "decrease"} ==>
      MobilityStatusOf(weeklyKm, TrendFromString(raw)) == MobilityStatusOf(weeklyKm, TrendDirection.Stable)
  {
  }

  /** The evidence variant: no record at zero distance, otherwise chosen by the sign of the delta. */
  function MobilityEvidenceOf(weeklyKm: real, delta: real): (e: MobilityEvidence)
    ensures e.NoRecord? <==> weeklyKm == 0.0
    ensures e.MovedMore? <==> weeklyKm != 0.0 && delta > 0.0
    ensures e.MovedLess? <==> weeklyKm != 0.0 && delta < 0.0
    ensures e.MovedSame? <==> weeklyKm != 0.0 && delta == 0.0
    ensures !e.NoRecord? ==> e.km == weeklyKm
    ensures e.MovedMore? || e.MovedLess? ==> e.delta == delta
  {
    if weeklyKm == 0.0 then NoRecord
    else if delta > 0.0 then MovedMore(weeklyKm, delta)
    else if delta < 0.0 then MovedLess(weeklyKm, delta)
    else MovedSame(weeklyKm)
  }

  /** `analyzeUserMobility`. */
  function AnalyzeUserMobility(stats: UserStats): (r: UserMobilityIndex)
    ensures r.status == MobilityStatusOf(stats.weeklyKm, stats.trend)
    ensures var config := MobilityStatusConfig(r.status);
      r.statusColor == config.color && r.statusIcon == config.icon && r.statusLabel == config.text
    ensures r.weeklyKm == stats.weeklyKm
    ensures r.weeklyKmDelta + stats.previousWeeklyKm.GetOr(0.0) == stats.weeklyKm
    ensures r.trend == stats.trend
    ensures r.activeDays == stats.activeDays.GetOr(0)
    ensures r.evidence == MobilityEvidenceOf(stats.weeklyKm, r.weeklyKmDelta)
  {
    var status := MobilityStatusOf(stats.weeklyKm, stats.trend);
    var config := MobilityStatusConfig(status);
    var delta := stats.weeklyKm - stats.previousWeeklyKm.GetOr(0.0);
    UserMobilityIndex(
      status, config.color, config.icon, config.text,
      stats.weeklyKm, delta, stats.trend, stats.activeDays.GetOr(0),
      MobilityEvidenceOf(stats.weeklyKm, delta))
  }

  // ---------------------------------------------------------------------------
  // Device condition
  // ---------------------------------------------------------------------------

  /** Usage intensity, from the user's weekly distance. */
  function UsageIntensityOf(weeklyKm: real): (u: UsageIntensity)
    ensures u == High <==> weeklyKm >= 50.0
    ensures u == Medium <==> 20.0 <= weeklyKm < 50.0
    ensures u == Low <==> weeklyKm < 20.0
  {
    if weeklyKm >= 50.0 then High
    else if weeklyKm >= 20.0 then Medium
    else Low
  }

  /** The risk accumulator (lower is better). */
  function RiskScore(repairs: nat, selfChecks: nat, days: nat, intensity: UsageIntensity): (r: nat)
    ensures r == 0 <==> repairs == 0 && selfChecks > 0 && days <= 30
    ensures 20 * repairs <= r <= 20 * repairs + 50
  {
    var afterRepairs := repairs * 20;
    var afterSelfChecks := afterRepairs + (if selfChecks == 0 then 15 else 0);
    var afterDays := afterSelfChecks + (if days > 60 then 20 else if days > 30 then 10 else 0);
    afterDays + (if intensity == High && selfChecks == 0 then 15 else 0)
  }

  /** More repairs never lower the risk score. */
  lemma RiskMonotoneInRepairs(r1: nat, r2: nat, selfChecks: nat, days: nat, intensity: UsageIntensity)
    requires r1 <= r2
    ensures RiskScore(r1, selfChecks, days, intensity) + 20 * (r2 - r1) == RiskScore(r2, selfChecks, days, intensity)
  {
  }

  /** More self-checks never raise the risk score; a longer gap since the last check never lowers it. */
  lemma RiskMonotoneInChecks(repairs: nat, s1: nat, s2: nat, d1: nat, d2: nat, intensity: UsageIntensity)
    requires s1 <= s2 && d1 <= d2
    ensures RiskScore(repairs, s2, d1, intensity) <= RiskScore(repairs, s1, d1, intensity)
    ensures RiskScore(repairs, s1, d1, intensity) <= RiskScore(repairs, s1, d2, intensity)
  {
  }

  function GradeRank(g: DeviceGrade): nat
  {
    match g
    case A => 0
    case B => 1
    case C => 2
  }

  /** The grade bands of the risk score. */
  function GradeOf(riskScore: nat): (g: DeviceGrade)
    ensures g == A <==> riskScore <= 10
    ensures g == B <==> 10 < riskScore <= 30
    ensures g == C <==> riskScore > 30
  {
    if riskScore <= 10 then A
    else if riskScore <= 30 then B
    else C
  }

  /** A higher risk score never gives a better grade. */
  lemma GradeMonotone(s1: nat, s2: nat)
    requires s1 <= s2
    ensures GradeRank(GradeOf(s1)) <= GradeRank(GradeOf(s2))
  {
  }

  /** The recommendation for a grade. */
  function RecommendationOf(grade: DeviceGrade, intensity: UsageIntensity, repairs: nat): (rec: Recommendation)
    ensures grade == A <==> rec == KeepRegularChecks
    ensures grade == B <==> rec in {CheckBatteryAndTires, RegularSelfCheck}
    ensures grade == C <==> rec in {ProfessionalInspection, SafetyInspection}
    ensures grade == B ==> (rec == CheckBatteryAndTires <==> intensity == High)
    ensures grade == C ==> (rec == ProfessionalInspection <==> repairs > 0)
  {
    match grade
    case A => KeepRegularChecks
    case B => if intensity == High then CheckBatteryAndTires else RegularSelfCheck
    case C => if repairs > 0 then ProfessionalInspection else SafetyInspection
  }

  predicate IsSelfCheckClause(c: EvidenceClause)
  {
    c.SelfChecksCompleted? || c.NoRecentSelfCheck?
  }

  /** The evidence clauses: an optional repairs clause, one self-check clause, an optional high-usage clause. */
  function EvidenceClauses(repairs: nat, selfChecks: nat, intensity: UsageIntensity): (ev: seq<EvidenceClause>)
    ensures |ev| == 1 + (if repairs > 0 then 1 else 0) + (if intensity == High then 1 else 0)
    ensures RepairsInLast30Days(repairs) in ev <==> repairs > 0
    ensures repairs > 0 ==> ev[0] == RepairsInLast30Days(repairs)
    ensures HighUsage in ev <==> intensity == High
    ensures intensity == High ==> ev[|ev| - 1] == HighUsage
    ensures forall i :: 0 <= i < |ev| ==> (IsSelfCheckClause(ev[i]) <==> i == (if repairs > 0 then 1 else 0))
    ensures SelfChecksCompleted(selfChecks) in ev <==> selfChecks > 0
    ensures NoRecentSelfCheck in ev <==> selfChecks == 0
  {
    (if repairs > 0 then [RepairsInLast30Days(repairs)] else [])
    + [if selfChecks > 0 then SelfChecksCompleted(selfChecks) else NoRecentSelfCheck]
    + (if intensity == High then [HighUsage] else [])
  }

  function ClauseText(c: EvidenceClause): (t: string)
    ensures t != []
  {
    match c
    case RepairsInLast30Days(n) => "최근 30일 수리 " + NatToString(n) + "회"
    case SelfChecksCompleted(n) => "자가점검 " + NatToString(n) + "회 완료"
    case NoRecentSelfCheck => "최근 자가점검 기록 없음"
    case HighUsage => "사용량 높음"
  }

  /** A text between a fixed prefix and a fixed suffix is determined by the whole. */
  lemma InfixCancel(a: string, x: string, y: string, b: string)
    requires a + x + b == a + y + b
    ensures x == y
  {
    var l, r := a + x + b, a + y + b;
    assert l[|a|..|l| - |b|] == x;
    assert r[|a|..|r| - |b|] == y;
  }

  /** Different clauses read differently: the texts tell the kinds apart, and a count reads back. */
  lemma ClauseTextInjective(c: EvidenceClause, d: EvidenceClause)
    requires ClauseText(c) == ClauseText(d)
    ensures c == d
  {
    var t := ClauseText(c);
    match c
    case RepairsInLast30Days(n) =>
      assert t[3] == '3';
      if d.RepairsInLast30Days? {
        InfixCancel("최근 30일 수리 ", NatToString(n), NatToString(d.count), "회");
        DecimalValueOfNatToString(n);
        DecimalValueOfNatToString(d.count);
      }
    case SelfChecksCompleted(n) =>
      assert t[0] == '자';
      if d.SelfChecksCompleted? {
        InfixCancel("자가점검 ", NatToString(n), NatToString(d.count), "회 완료");
        DecimalValueOfNatToString(n);
        DecimalValueOfNatToString(d.count);
      }
    case NoRecentSelfCheck =>
      assert t[0] == '최' && t[3] == '자';
    case HighUsage =>
      assert t[0] == '사';
  }

  /** The evidence sentence: the clause texts joined with " · ". */
  function EvidenceText(clauses: seq<EvidenceClause>): string
  {
    Join(seq(|clauses|, i requires 0 <= i < |clauses| => ClauseText(clauses[i])), " · ")
  }

  function RecommendationText(rec: Recommendation): string
  {
    match rec
    case KeepRegularChecks => "현재 상태가 양호합니다. 정기 점검을 유지해주세요."
    case CheckBatteryAndTires => "사용량이 많습니다. 배터리와 타이어 상태를 점검해주세요."
    case RegularSelfCheck => "정기 자가점검을 권장합니다."
    case ProfessionalInspection => "최근 수리 이력이 있습니다. 전문 점검을 받아보세요."
    case SafetyInspection => "오랜 기간 점검이 없었습니다. 안전을 위해 점검을 받아주세요."
  }

  /** `analyzeDeviceCondition`. */
  function AnalyzeDeviceCondition(device: DeviceStats, user: UserStats): (r: DeviceConditionIndex)
    ensures r.usageIntensity == UsageIntensityOf(user.weeklyKm)
    ensures r.daysSinceLastCheck == device.daysSinceLastCheck.GetOr(30)
    ensures r.grade == GradeOf(RiskScore(device.recentRepairs, device.recentSelfChecks, r.daysSinceLastCheck, r.usageIntensity))
    ensures var config := DeviceGradeConfig(r.grade);
      r.gradeColor == config.color && r.gradeIcon == config.icon && r.gradeLabel == config.text
    ensures r.cumulativeKm == device.estimatedCumulativeKm.GetOr(0.0)
    ensures r.recentRepairs == device.recentRepairs && r.recentSelfChecks == device.recentSelfChecks
    ensures r.recommendation == RecommendationOf(r.grade, r.usageIntensity, device.recentRepairs)
    ensures r.evidence == EvidenceClauses(device.recentRepairs, device.recentSelfChecks, r.usageIntensity)
  {
    var days := device.daysSinceLastCheck.GetOr(30);
    var intensity := UsageIntensityOf(user.weeklyKm);
    var grade := GradeOf(RiskScore(device.recentRepairs, device.recentSelfChecks, days, intensity));
    var config := DeviceGradeConfig(grade);
    DeviceConditionIndex(
      grade, config.color, config.icon, config.text,
      device.estimatedCumulativeKm.GetOr(0.0), device.recentRepairs, device.recentSelfChecks, days,
      intensity,
      EvidenceClauses(device.recentRepairs, device.recentSelfChecks, intensity),
      RecommendationOf(grade, intensity, device.recentRepairs))
  }

  /** The grade in closed form, without the risk score. */
  lemma DeviceGradeClosedForm(device: DeviceStats, user: UserStats)
    ensures var days := device.daysSinceLastCheck.GetOr(30);
      var high := user.weeklyKm >= 50.0;
      var grade := AnalyzeDeviceCondition(device, user).grade;
      && (grade == A <==> device.recentRepairs == 0 && device.recentSelfChecks > 0 && days <= 60)
      && (grade == C <==>
            || device.recentRepairs >= 2
            || (device.recentRepairs == 1 && (device.recentSelfChecks == 0 || days > 60))
            || (device.recentRepairs == 0 && device.recentSelfChecks == 0 && (days > 60 || (high && days > 30))))
  {
  }

  /** More repairs, holding the rest fixed, never improve the grade. */
  lemma GradeMonotoneInRepairs(device: DeviceStats, more: nat, user: UserStats)
    requires device.recentRepairs <= more
    ensures GradeRank(AnalyzeDeviceCondition(device, user).grade)
         <= GradeRank(AnalyzeDeviceCondition(device.(recentRepairs := more), user).grade)
  {
    var days := device.daysSinceLastCheck.GetOr(30);
    var intensity := UsageIntensityOf(user.weeklyKm);
    RiskMonotoneInRepairs(device.recentRepairs, more, device.recentSelfChecks, days, intensity);
    GradeMonotone(RiskScore(device.recentRepairs, device.recentSelfChecks, days, intensity),
                  RiskScore(more, device.recentSelfChecks, days, intensity));
  }

  // ---------------------------------------------------------------------------
  // Both axes and the legacy adapter
  // ---------------------------------------------------------------------------

  /** `analyzeDualMetrics`. */
  function AnalyzeDualMetrics(user: UserStats, device: DeviceStats): DualAxis
  {
    DualAxis(AnalyzeUserMobility(user), AnalyzeDeviceCondition(device, user))
  }

  /** The mobility axis ignores the device; the device axis reads the user only through `weeklyKm`. */
  lemma AxesIndependent(u1: UserStats, u2: UserStats, d1: DeviceStats, d2: DeviceStats)
    ensures u1 == u2 ==> AnalyzeDualMetrics(u1, d1).userMobility == AnalyzeDualMetrics(u2, d2).userMobility
    ensures d1 == d2 && u1.weeklyKm == u2.weeklyKm ==>
      AnalyzeDualMetrics(u1, d1).deviceCondition == AnalyzeDualMetrics(u2, d2).deviceCondition
  {
  }

  /** The flat metadata stored by reports written before the dual-axis model. */
  datatype LegacyMetadata = LegacyMetadata(weeklyKm: real, trend: string, recentRepairs: nat, recentSelfChecks: nat)

  /** `convertLegacyToDualAxis`: wraps the legacy fields, leaving every optional field out. */
  function ConvertLegacyToDualAxis(meta: LegacyMetadata): DualAxis
  {
    AnalyzeDualMetrics(
      UserStats(meta.weeklyKm, None, TrendFromString(meta.trend), None),
      DeviceStats(meta.recentRepairs, meta.recentSelfChecks, None, None))
  }

  /** The adapter's result equals the classifier's on the same data with every default written out. */
  lemma LegacyFillsDefaults(meta: LegacyMetadata)
    ensures ConvertLegacyToDualAxis(meta) == AnalyzeDualMetrics(
      UserStats(meta.weeklyKm, Some(0.0), TrendFromString(meta.trend), Some(0)),
      DeviceStats(meta.recentRepairs, meta.recentSelfChecks, Some(30), Some(0.0)))
  {
  }

  /** On the legacy path: grade A iff no repairs and at least one self-check; grade C only after a repair,
      and then the recommendation is a professional inspection. */
  lemma LegacyGrade(meta: LegacyMetadata)
    ensures var device := ConvertLegacyToDualAxis(meta).deviceCondition;
      && (device.grade == A <==> meta.recentRepairs == 0 && meta.recentSelfChecks > 0)
      && (device.grade == C ==> meta.recentRepairs > 0)
      && (device.grade == C ==> device.recommendation == ProfessionalInspection)
  {
    var user := UserStats(meta.weeklyKm, None, TrendFromString(meta.trend), None);
    DeviceGradeClosedForm(DeviceStats(meta.recentRepairs, meta.recentSelfChecks, None, None), user);
  }

  /** On the legacy path a trend string outside the three directions classifies as "stable" does. */
  lemma LegacyUncheckedTrendActsStable(meta: LegacyMetadata)
    requires meta.trend !in {"increase", "stable", "decrease"}
    ensures var odd := ConvertLegacyToDualAxis(meta);
      var stable := ConvertLegacyToDualAxis(meta.(trend := "stable"));
      && odd.userMobility.status == stable.userMobility.status
      && odd.userMobility.trend == Unchecked(meta.trend)
      && odd.deviceCondition == stable.deviceCondition
  {
    StatusMonotoneInTrend(meta.weeklyKm, meta.trend);
  }

  // ---------------------------------------------------------------------------
  // Worked scenarios
  // ---------------------------------------------------------------------------

  /** A healthy user and device; an at-risk device; a user with no movement. */
  lemma Scenarios()
    ensures var r := AnalyzeDualMetrics(
        UserStats(40.0, Some(35.0), TrendDirection.Stable, None), DeviceStats(0, 1, Some(10), None));
      r.userMobility.status == Active && r.userMobility.weeklyKmDelta == 5.0
      && r.deviceCondition.usageIntensity == Medium && r.deviceCondition.grade == A
    ensures var r := AnalyzeDualMetrics(
        UserStats(60.0, None, TrendDirection.Stable, None), DeviceStats(1, 0, Some(70), None));
      r.deviceCondition.usageIntensity == High && r.deviceCondition.grade == C
      && r.deviceCondition.recommendation == ProfessionalInspection
      && RiskScore(1, 0, 70, High) == 70
    ensures var r := AnalyzeUserMobility(UserStats(0.0, Some(0.0), TrendDirection.Stable, None));
      r.status == Inactive && r.evidence == NoRecord && r.weeklyKmDelta == 0.0
  {
  }

  /** The evidence sentence is the first clause's text, the separator, then the sentence of the rest. */
  lemma EvidenceTextCons(clauses: seq<EvidenceClause>)
    requires |clauses| >= 2
    ensures EvidenceText(clauses) == ClauseText(clauses[0]) + " · " + EvidenceText(clauses[1..])
  {
    var texts := seq(|clauses|, i requires 0 <= i < |clauses| => ClauseText(clauses[i]));
    var rest := clauses[1..];
    assert texts[1..] == seq(|rest|, i requires 0 <= i < |rest| => ClauseText(rest[i]));
  }
}

=== FILE: dual_axis_report_model.dfy ===
/**
 Types of the dual-axis report: the user's mobility status and the device's
 condition grade are judged separately, each with a fixed colour/icon/label
 table.
 */
module DualAxisReportModel {
  import opened Nullish

  datatype MobilityStatus = Active | Stable | Declining | Inactive

  datatype DeviceGrade = A | B | C

  /** The three declared trend directions, plus any other string the legacy adapter casts in unchecked. */
  datatype TrendDirection = Increase | Stable | Decrease | Unchecked(raw: string)

  datatype Color = Green | Blue | Yellow | Red

  datatype Config = Config(color: Color, icon: string, text: string)

  datatype UsageIntensity = Low | Medium | High

  /** Only `weeklyKm` and `trend` are required; the other two fields are optional. */
  datatype UserStats = UserStats(
    weeklyKm: real,
    previousWeeklyKm: Option<real>,
    trend: TrendDirection,
    activeDays: Option<nat>)

  /** Only the two counts are required; the other two fields are optional. */
  datatype DeviceStats = DeviceStats(
    recentRepairs: nat,
    recentSelfChecks: nat,
    daysSinceLastCheck: Option<nat>,
    estimatedCumulativeKm: Option<real>)

  /**
   The mobility evidence sentence, as the variant chosen and the numbers it
   shows (the one-decimal formatting is not modelled).
   */
  datatype MobilityEvidence =
    | NoRecord
    | MovedMore(km: real, delta: real)
    | MovedLess(km: real, delta: real)
    | MovedSame(km: real)

  datatype UserMobilityIndex = UserMobilityIndex(
    status: MobilityStatus,
    statusColor: Color,
    statusIcon: string,
    statusLabel: string,
    weeklyKm: real,
    weeklyKmDelta: real,
    trend: TrendDirection,
    activeDays: nat,
    evidence: MobilityEvidence)

  /** One clause of the device evidence sentence. */
  datatype EvidenceClause =
    | RepairsInLast30Days(count: nat)
    | SelfChecksCompleted(count: nat)
    | NoRecentSelfCheck
    | HighUsage

  datatype Recommendation =
    | KeepRegularChecks
    | CheckBatteryAndTires
    | RegularSelfCheck
    | ProfessionalInspection
    | SafetyInspection

  datatype DeviceConditionIndex = DeviceConditionIndex(
    grade: DeviceGrade,
    gradeColor: Color,
    gradeIcon: string,
    gradeLabel: string,
    cumulativeKm: real,
    recentRepairs: nat,
    recentSelfChecks: nat,
    daysSinceLastCheck: nat,
    usageIntensity: UsageIntensity,
    evidence: seq<EvidenceClause>,
    recommendation: Recommendation)

  datatype DualAxis = DualAxis(userMobility: UserMobilityIndex, deviceCondition: DeviceConditionIndex)

  datatype ServiceCategory = Mobility | Device

  datatype ServiceRecommendation = ServiceRecommendation(
    name: string,
    reason: string,
    link: Option<string>,
    category: ServiceCategory)

  /** `MOBILITY_STATUS_CONFIG`: one entry for every status. */
  function MobilityStatusConfig(s: MobilityStatus): Config
  {
    match s
    case Active => Config(Green, "", "활발")
    case Stable => Config(Blue, "", "안정")
    case Declining => Config(Yellow, "", "감소 중")
    case Inactive => Config(Red, "", "비활동")
  }

  /** `DEVICE_GRADE_CONFIG`: one entry for every grade. */
  function DeviceGradeConfig(g: DeviceGrade): Config
  {
    match g
    case A => Config(Green, "", "양호")
    case B => Config(Yellow, "", "점검 권장")
    case C => Config(Red, "", "주의 필요")
  }

  /**
   Each status gets its own colour and label: green "활발", blue "안정",
   yellow "감소 중" and red "비활동" from the most to the least active, all
   with an empty icon; so no two statuses share a colour or a label.
   */
  lemma MobilityStatusConfigInjective()
    ensures MobilityStatusConfig(Active) == Config(Green, "", "활발")
    ensures MobilityStatusConfig(MobilityStatus.Stable) == Config(Blue, "", "안정")
    ensures MobilityStatusConfig(Declining) == Config(Yellow, "", "감소 중")
    ensures MobilityStatusConfig(Inactive) == Config(Red, "", "비활동")
    ensures forall s, t :: MobilityStatusConfig(s).color == MobilityStatusConfig(t).color ==> s == t
    ensures forall s, t :: MobilityStatusConfig(s).text == MobilityStatusConfig(t).text ==> s == t
  {
  }

  /**
   Grade A is green "양호", B yellow "점검 권장" and C red "주의 필요", all with
   an empty icon; so grades are told apart by colour and by label, and no
   grade is blue.
   */
  lemma DeviceGradeConfigInjective()
    ensures DeviceGradeConfig(A) == Config(Green, "", "양호")
    ensures DeviceGradeConfig(B) == Config(Yellow, "", "점검 권장")
    ensures DeviceGradeConfig(C) == Config(Red, "", "주의 필요")
    ensures forall g, h :: DeviceGradeConfig(g).color == DeviceGradeConfig(h).color ==> g == h
    ensures forall g, h :: DeviceGradeConfig(g).text == DeviceGradeConfig(h).text ==> g == h
    ensures forall g :: DeviceGradeConfig(g).color != Blue
  {
  }

  /** The name the trend carries as a string in the source. */
  function TrendName(t: TrendDirection): string
  {
    match t
    case Increase => "increase"
    case Stable => "stable"
    case Decrease => "decrease"
    case Unchecked(raw) => raw
  }

  /** The unchecked cast `trend as TrendDirection`: the string is kept as it is. */
  function TrendFromString(s: string): (t: TrendDirection)
    ensures TrendName(t) == s
    ensures t.Unchecked? <==> s !in {"increase", "stable", "decrease"}
  {
    if s == "increase" then Increase
    else if s == "stable" then TrendDirection.Stable
    else if s == "decrease" then Decrease
    else Unchecked(s)
  }

  /** A trend is well formed when it is one of the three declared directions or an undeclared string. */
  predicate WellFormedTrend(t: TrendDirection)
  {
    t.Unchecked? ==> t.raw !in {"increase", "stable", "decrease"}
  }

  /** Casting a trend's name back gives the same trend. */
  lemma TrendNameRoundTrip(t: TrendDirection)
    requires WellFormedTrend(t)
    ensures TrendFromString(TrendName(t)) == t
  {
  }
}

=== FILE: nullish.dfy ===
/**
 Missing values as the repository's TypeScript meets them.

 - `Option<T>` stands for a field typed `T | null` or an optional parameter
   whose only missing value is `undefined`.
 - `Prop<T>` stands for one property of an object literal passed to a model
   constructor or to `copyWith`: the key may be left out, present with the
   value `undefined` (or `null`), or given a value. The difference matters for
   the spread `{...this, ...changes}`: a left-out key keeps the old value, a
   present-but-undefined key overwrites it with `undefined`.
 */
module Nullish {

  datatype Option<+T> = None | Some(value: T)
  {
    /** `o ?? d` and the default-parameter form `{ x = d }`. */
    function GetOr(d: T): T
    {
      match this
      case Some(v) => v
      case None => d
    }
  }

  datatype Prop<+T> = Absent | Undefined | Given(value: T)

  /** `p ?? d`: the given value, or the default when the property is nullish. */
  function Coalesce<T>(p: Prop<T>, d: T): T
  {
    match p
    case Given(v) => v
    case _ => d
  }

  /** One key of `{...base, ...changes}`: a key `changes` leaves out keeps `base`'s value. */
  function Spread<T>(base: T, change: Prop<T>): Prop<T>
  {
    match change
    case Absent => Given(base)
    case _ => change
  }

  /** The value a `copyWith` stores for one field: the spread, then the constructor's `??`. */
  function Merge<T>(base: T, change: Prop<T>, d: T): (r: T)
    ensures change.Absent? ==> r == base
    ensures change.Undefined? ==> r == d
    ensures change.Given? ==> r == change.value
  {
    Coalesce(Spread(base, change), d)
  }

  /** `changes.x ? changes.x : this.x` for a `Date` field: a given date object is always truthy. */
  function Override<T>(base: T, change: Prop<T>): (r: T)
    ensures change.Given? ==> r == change.value
    ensures !change.Given? ==> r == base
  {
    if change.Given? then change.value else base
  }
}

=== FILE: protected_route.dfy ===
/**
 The route guard: while the user's role loads nothing is shown; a page that
 needs a signed-in user sends a visitor to sign-in, remembering where they
 were; a page for visitors sends a signed-in user back where they came from,
 or to the repairs list.
 */
module ProtectedRoute {
  import opened Nullish
  import opened Routes

  /** The `from` record a redirect to sign-in leaves in the location state. */
  datatype From = From(pathname: string, search: Option<string>)

  /** `location.state` as the guard reads it: anything that is not an object with a `from` key, or such
      an object whose `from` may still be `undefined`. */
  datatype LocationState = NoState | WithFrom(from: Option<From>)

  datatype Outcome =
    | RenderNothing
    | RedirectToSignIn(from: From)
    | RedirectTo(path: string)
    | RenderChildren

  /** A role is present when it is a non-empty string. */
  predicate HasRole(userRole: Option<string>)
  {
    userRole.Some? && userRole.value != ""
  }

  /** The guard's decision; `queryParams` are the current search parameters as entries and `encode`
      is the URL encoder. */
  function Decide(isLoading: bool, requireAuth: bool, userRole: Option<string>, state: LocationState,
                  pathname: string, search: string, queryParams: seq<(string, string)>,
                  encode: string -> string): (o: Outcome)
    ensures isLoading <==> o == RenderNothing
    ensures o.RedirectToSignIn? <==> !isLoading && requireAuth && !HasRole(userRole)
    ensures o.RedirectToSignIn? ==> o.from == From(pathname, Some(search))
    ensures o.RedirectTo? <==> !isLoading && !requireAuth && HasRole(userRole)
    ensures o.RenderChildren? <==> !isLoading && requireAuth == HasRole(userRole)
    ensures o.RedirectTo? && state.WithFrom? && state.from.Some? && state.from.value.pathname != "" ==>
      o.path == state.from.value.pathname + state.from.value.search.GetOr("")
    ensures o.RedirectTo? && !(state.WithFrom? && state.from.Some? && state.from.value.pathname != "") ==>
      o.path == BuildRoute(Repairs, [], queryParams, encode)
  {
    if isLoading then RenderNothing
    else if requireAuth && !HasRole(userRole) then RedirectToSignIn(From(pathname, Some(search)))
    else if !requireAuth && HasRole(userRole) then
      match state
      case WithFrom(Some(from)) =>
        if from.pathname != "" then RedirectTo(from.pathname + from.search.GetOr(""))
        else RedirectTo(BuildRoute(Repairs, [], queryParams, encode))
      case _ => RedirectTo(BuildRoute(Repairs, [], queryParams, encode))
    else RenderChildren
  }

  /** Signing in on the page the guard redirected to returns the user to the page they asked for,
      query included. */
  lemma SignInRoundTrip(requested: string, search: string, userRole: string, signInPath: string, signInSearch: string,
                        queryParams: seq<(string, string)>, encode: string -> string)
    requires requested != "" && userRole != ""
    ensures var first := Decide(false, true, None, NoState, requested, search, queryParams, encode);
      && first.RedirectToSignIn?
      && Decide(false, false, Some(userRole), WithFrom(Some(first.from)), signInPath, signInSearch, queryParams, encode)
         == RedirectTo(requested + search)
  {
  }

  /** Without a usable `from`, a signed-in user on a visitors' page lands on the repairs list with the
      current query. */
  lemma SignedInVisitorGoesToRepairs(userRole: string, state: LocationState, pathname: string, search: string,
                                     queryParams: seq<(string, string)>, encode: string -> string)
    requires userRole != ""
    requires !(state.WithFrom? && state.from.Some? && state.from.value.pathname != "")
    ensures var o := Decide(false, false, Some(userRole), state, pathname, search, queryParams, encode);
      o.RedirectTo? && RoutePath(Repairs) <= o.path
  {
    BuildRouteStartsWithPath(Repairs, [], queryParams, encode);
  }
}

=== FILE: repair_create.dfy ===
/**
 The new-repair form: each input handler updates one field of the repair
 being written through `copyWith`, the form is valid once type, price,
 problem and action are filled in, and submitting a valid form resets it.
 */
module RepairCreate {
  import opened Nullish
  import opened Text
  import opened RepairModel

  /** The two repair kinds the type picker offers. */
  datatype RepairKind = Accident | Routine

  function KindName(k: RepairKind): string
  {
    match k
    case Accident => "accident"
    case Routine => "routine"
  }

  /** `isFormValid`: a chosen type, a positive price, and non-empty problem and action texts. */
  predicate IsFormValid(form: Repair)
  {
    form.repairType != "" && form.price > 0 && form.problem != "" && form.action != ""
  }

  /** `updateType`: a picked kind stores its name; clearing the picker stores `null`, which the
      constructor turns into the empty string. */
  function UpdateType(form: Repair, kind: Option<RepairKind>): (r: Repair)
    ensures kind.Some? ==> r == form.(repairType := KindName(kind.value))
    ensures kind.None? ==> r == form.(repairType := "") && !IsFormValid(r)
  {
    CopyWith(form, NoChanges.(repairType := if kind.Some? then Given(KindName(kind.value)) else Undefined))
  }

  /** The price typed into the field: its digits read as a decimal number, 0 when there are none. */
  function ParsePrice(value: string): (price: nat)
    ensures KeepDigits(value) == [] ==> price == 0
  {
    var digits := KeepDigits(value);
    if digits == [] then 0 else DecimalValue(digits)
  }

  /** `updatePrice`: only the price changes, and it is never negative. */
  function UpdatePrice(form: Repair, value: string): (r: Repair)
    ensures r == form.(price := ParsePrice(value))
    ensures r.price >= 0
  {
    CopyWith(form, NoChanges.(price := Given(ParsePrice(value) as int)))
  }

  /** Typing a number's decimal text, with non-digit text around it, sets that number. */
  lemma UpdatePriceReadsNumber(form: Repair, n: nat, before: string, after: string)
    requires forall i :: 0 <= i < |before| ==> !IsDigit(before[i])
    requires forall i :: 0 <= i < |after| ==> !IsDigit(after[i])
    ensures UpdatePrice(form, before + NatToString(n) + after).price == n
  {
    var s := NatToString(n);
    var typed := before + s + after;
    KeepDigitsAppend(before + s, after);
    KeepDigitsAppend(before, s);
    KeepDigitsOfDigits(s);
    NoDigitsKept(before);
    NoDigitsKept(after);
    assert KeepDigits(typed) == s;
    DecimalValueOfNatToString(n);
    assert ParsePrice(typed) == n;
  }

  lemma {:induction false} NoDigitsKept(s: string)
    requires forall i :: 0 <= i < |s| ==> !IsDigit(s[i])
    ensures KeepDigits(s) == []
    decreases |s|
  {
    if s != [] {
      NoDigitsKept(s[1..]);
    }
  }

  /** Typing one more digit after the shown price multiplies it by ten and adds the digit. */
  lemma UpdatePriceAppendDigit(form: Repair, price: nat, d: nat)
    requires d < 10
    ensures UpdatePrice(form, NatToString(price) + [DigitChar(d)]).price == 10 * price + d
  {
    var s := NatToString(price) + [DigitChar(d)];
    DecimalValueOfNatToString(price);
    AppendDigitValue(NatToString(price), d);
    KeepDigitsOfDigits(s);
    assert ParsePrice(s) == 10 * price + d;
  }

  /** Appending a digit to a decimal text multiplies its value by ten and adds the digit. */
  lemma AppendDigitValue(t: string, d: nat)
    requires AllDigits(t) && d < 10
    ensures AllDigits(t + [DigitChar(d)])
    ensures DecimalValue(t + [DigitChar(d)]) == 10 * DecimalValue(t) + d
  {
    var s := t + [DigitChar(d)];
    assert s[..|s| - 1] == t;
  }

  /** `updateProblem`: only the problem text changes. */
  function UpdateProblem(form: Repair, value: string): (r: Repair)
    ensures r == form.(problem := value)
  {
    CopyWith(form, NoChanges.(problem := Given(value)))
  }

  /** `updateAction`: only the action text changes. */
  function UpdateAction(form: Repair, value: string): (r: Repair)
    ensures r == form.(action := value)
  {
    CopyWith(form, NoChanges.(action := Given(value)))
  }

  /** Filling in the four fields in any state makes the form valid exactly when the entries are usable. */
  lemma FillingTheForm(form: Repair, kind: RepairKind, price: string, problem: string, action: string)
    ensures var r := UpdateAction(UpdateProblem(UpdatePrice(UpdateType(form, Some(kind)), price), problem), action);
      IsFormValid(r) <==> ParsePrice(price) > 0 && problem != "" && action != ""
  {
  }

  /** `submitRepair`: an invalid form is left as it is; a valid one is saved, reset to `initial` (the
      empty repair built when the page's module loads), and the page navigates back. */
  function SubmitRepair(form: Repair, initial: Repair): (result: (Repair, bool))
    ensures !IsFormValid(form) ==> result == (form, false)
    ensures IsFormValid(form) ==> result == (initial, true)
  {
    if !IsFormValid(form) then (form, false) else (ResetForm(initial), true)
  }

  /** `resetForm`: the form goes back to the repair it started as. */
  function ResetForm(initial: Repair): Repair
  {
    initial
  }

  /** The empty repair is never a valid form, so a submitted form cannot be submitted again. */
  lemma SubmitOnce(form: Repair, loadTime: int)
    ensures var (after, navigated) := SubmitRepair(form, Empty(loadTime));
      && (navigated <==> IsFormValid(form))
      && !IsFormValid(after)
      && SubmitRepair(after, Empty(loadTime)) == (after, false)
  {
    FromInputRoundTrip(Empty(loadTime), loadTime);
  }
}

=== FILE: repair_model.dfy ===
/**
 The repair record: the category label table and its key list, a
 constructor that defaults every missing field, and `copyWith`.
 */
module RepairModel {
  import opened Nullish

  datatype RepairCategory =
    | DriveUnit
    | ElectronicControl
    | Brake
    | Seat
    | Footrest
    | Frame
    | TireTube
    | Battery
    | Etc

  /** The key of a category in `REPAIR_CATEGORY_LABELS`. */
  function CategoryKey(c: RepairCategory): string
  {
    match c
    case DriveUnit => "drive_unit"
    case ElectronicControl => "electronic_control"
    case Brake => "brake"
    case Seat => "seat"
    case Footrest => "footrest"
    case Frame => "frame"
    case TireTube => "tire_tube"
    case Battery => "battery"
    case Etc => "etc"
  }

  /** `REPAIR_CATEGORY_LABELS`. */
  function CategoryLabel(c: RepairCategory): string
  {
    match c
    case DriveUnit => "구동장치"
    case ElectronicControl => "전자제어"
    case Brake => "제동장치"
    case Seat => "시트"
    case Footrest => "발걸이"
    case Frame => "프레임"
    case TireTube => "타이어 | 튜브"
    case Battery => "배터리"
    case Etc => "기타"
  }

  /** `REPAIR_CATEGORY_KEYS`: `Object.keys` of the label table, in insertion order. */
  const CategoryKeys: seq<RepairCategory> :=
    [DriveUnit, ElectronicControl, Brake, Seat, Footrest, Frame, TireTube, Battery, Etc]

  /** The key list names every category exactly once, and keys and labels identify their category. */
  lemma CategoryKeysComplete()
    ensures |CategoryKeys| == 9
    ensures forall c :: c in CategoryKeys
    ensures forall i, j :: 0 <= i < j < |CategoryKeys| ==> CategoryKeys[i] != CategoryKeys[j]
    ensures forall c, d :: CategoryKey(c) == CategoryKey(d) ==> c == d
    ensures forall c, d :: CategoryLabel(c) == CategoryLabel(d) ==> c == d
  {
    forall c ensures c in CategoryKeys {
      match c
      case DriveUnit => assert CategoryKeys[0] == c;
      case ElectronicControl => assert CategoryKeys[1] == c;
      case Brake => assert CategoryKeys[2] == c;
      case Seat => assert CategoryKeys[3] == c;
      case Footrest => assert CategoryKeys[4] == c;
      case Frame => assert CategoryKeys[5] == c;
      case TireTube => assert CategoryKeys[6] == c;
      case Battery => assert CategoryKeys[7] == c;
      case Etc => assert CategoryKeys[8] == c;
    }
  }

  /** The object literal handed to the constructor or to `copyWith`; every key is optional. */
  datatype RepairInput = RepairInput(
    id: Prop<string>,
    repairedAt: Prop<int>,
    price: Prop<int>,
    repairType: Prop<string>,
    shopLabel: Prop<string>,
    shopCode: Prop<string>,
    problem: Prop<string>,
    action: Prop<string>,
    categories: Prop<seq<string>>,
    officer: Prop<string>,
    batteryVoltage: Prop<string>,
    etcRepairPart: Prop<string>)

  /** A repair; `repairedAt` is a timestamp and `repairType` is the source's `type`. */
  datatype Repair = Repair(
    id: string,
    repairedAt: int,
    price: int,
    repairType: string,
    shopLabel: string,
    shopCode: string,
    problem: string,
    action: string,
    categories: seq<string>,
    officer: string,
    batteryVoltage: string,
    etcRepairPart: string)

  const NoChanges: RepairInput :=
    RepairInput(Absent, Absent, Absent, Absent, Absent, Absent, Absent, Absent, Absent, Absent, Absent, Absent)

  /** The constructor; `now` stands for the clock read by `new Date()`. */
  function FromInput(m: RepairInput, now: int): (r: Repair)
    ensures r.id == (if m.id.Given? then m.id.value else "")
    ensures r.repairedAt == (if m.repairedAt.Given? then m.repairedAt.value else now)
    ensures r.price == (if m.price.Given? then m.price.value else 0)
    ensures r.repairType == (if m.repairType.Given? then m.repairType.value else "")
    ensures r.shopLabel == (if m.shopLabel.Given? then m.shopLabel.value else "")
    ensures r.shopCode == (if m.shopCode.Given? then m.shopCode.value else "")
    ensures r.problem == (if m.problem.Given? then m.problem.value else "")
    ensures r.action == (if m.action.Given? then m.action.value else "")
    ensures r.categories == (if m.categories.Given? then m.categories.value else [])
    ensures r.officer == (if m.officer.Given? then m.officer.value else "")
    ensures r.batteryVoltage == (if m.batteryVoltage.Given? then m.batteryVoltage.value else "")
    ensures r.etcRepairPart == (if m.etcRepairPart.Given? then m.etcRepairPart.value else "")
  {
    Repair(
      Coalesce(m.id, ""),
      Coalesce(m.repairedAt, now),
      Coalesce(m.price, 0),
      Coalesce(m.repairType, ""),
      Coalesce(m.shopLabel, ""),
      Coalesce(m.shopCode, ""),
      Coalesce(m.problem, ""),
      Coalesce(m.action, ""),
      Coalesce(m.categories, []),
      Coalesce(m.officer, ""),
      Coalesce(m.batteryVoltage, ""),
      Coalesce(m.etcRepairPart, ""))
  }

  /** The repair `new RepairModel({})` builds at time `now`. */
  function Empty(now: int): Repair
  {
    FromInput(NoChanges, now)
  }

  /** Every field of a repair, written out as constructor input. */
  function ToInput(r: Repair): RepairInput
  {
    RepairInput(
      Given(r.id), Given(r.repairedAt), Given(r.price), Given(r.repairType), Given(r.shopLabel),
      Given(r.shopCode), Given(r.problem), Given(r.action), Given(r.categories), Given(r.officer),
      Given(r.batteryVoltage), Given(r.etcRepairPart))
  }

  /** Supplying every field reproduces the repair; supplying none gives empty strings, price 0 and no categories. */
  lemma FromInputRoundTrip(r: Repair, now: int)
    ensures FromInput(ToInput(r), now) == r
    ensures Empty(now) == Repair("", now, 0, "", "", "", "", "", [], "", "", "")
  {
  }

  /** `{...this, ...changes, repairedAt: …}`. */
  function SpreadInput(r: Repair, changes: RepairInput): RepairInput
  {
    RepairInput(
      Spread(r.id, changes.id),
      Given(Override(r.repairedAt, changes.repairedAt)),
      Spread(r.price, changes.price),
      Spread(r.repairType, changes.repairType),
      Spread(r.shopLabel, changes.shopLabel),
      Spread(r.shopCode, changes.shopCode),
      Spread(r.problem, changes.problem),
      Spread(r.action, changes.action),
      Spread(r.categories, changes.categories),
      Spread(r.officer, changes.officer),
      Spread(r.batteryVoltage, changes.batteryVoltage),
      Spread(r.etcRepairPart, changes.etcRepairPart))
  }

  /** `copyWith`: the constructor applied to the spread; `repairedAt` is given, so the clock is never read. */
  function CopyWith(r: Repair, changes: RepairInput): (c: Repair)
    ensures c.id == Merge(r.id, changes.id, "")
    ensures c.repairedAt == Override(r.repairedAt, changes.repairedAt)
    ensures c.price == Merge(r.price, changes.price, 0)
    ensures c.repairType == Merge(r.repairType, changes.repairType, "")
    ensures c.shopLabel == Merge(r.shopLabel, changes.shopLabel, "")
    ensures c.shopCode == Merge(r.shopCode, changes.shopCode, "")
    ensures c.problem == Merge(r.problem, changes.problem, "")
    ensures c.action == Merge(r.action, changes.action, "")
    ensures c.categories == Merge(r.categories, changes.categories, [])
    ensures c.officer == Merge(r.officer, changes.officer, "")
    ensures c.batteryVoltage == Merge(r.batteryVoltage, changes.batteryVoltage, "")
    ensures c.etcRepairPart == Merge(r.etcRepairPart, changes.etcRepairPart, "")
  {
    FromInput(SpreadInput(r, changes), r.repairedAt)
  }

  /** `copyWith({})` preserves every field, and giving every field replaces the repair. */
  lemma CopyWithNoChanges(r: Repair, s: Repair)
    ensures CopyWith(r, NoChanges) == r
    ensures CopyWith(r, ToInput(s)) == s
  {
  }

  /** Changing one field leaves every other one, `repairedAt` included, as it was. */
  lemma CopyWithOneField(r: Repair, price: int, problem: string)
    ensures CopyWith(r, NoChanges.(price := Given(price))) == r.(price := price)
    ensures CopyWith(r, NoChanges.(problem := Given(problem))) == r.(problem := problem)
    ensures CopyWith(r, NoChanges.(repairedAt := Undefined)).repairedAt == r.repairedAt
  {
  }
}

=== FILE: repairs_page.dfy ===
/**
 The repairs list screen: the keyword filter with its newest-first order,
 the repair count, this month's price total, and the two input handlers.
 */
module RepairsPage {
  import opened Text
  import opened RepairModel

  datatype Tab = RepairsTab | VehicleTab

  /** A calendar month in local time. */
  datatype YearMonth = YearMonth(year: int, month: int)

  /** The store's fields; the sample loader and the vehicle are left out. */
  datatype RepairsStore = RepairsStore(
    repairs: seq<Repair>,
    searchKeyword: string,
    activeTab: Tab,
    totalRepairsCount: nat,
    repairPriceSumThisMonth: int)

  // ---------------------------------------------------------------------------
  // Filtering
  // ---------------------------------------------------------------------------

  /** The filter's test: an empty keyword is falsy and lets everything through. */
  predicate Matches(r: Repair, keyword: string)
  {
    keyword == [] || Contains(r.repairType, keyword) || Contains(r.shopLabel, keyword)
  }

  /** `repairs.filter(…)`: a new array of the matching repairs, in their original order. */
  function FilterRepairs(repairs: seq<Repair>, keyword: string): (r: seq<Repair>)
    ensures |r| <= |repairs|
    ensures forall x :: x in r <==> x in repairs && Matches(x, keyword)
    ensures multiset(r) <= multiset(repairs)
    ensures forall x :: multiset(r)[x] == if Matches(x, keyword) then multiset(repairs)[x] else 0
    decreases |repairs|
  {
    if repairs == [] then []
    else
      assert repairs == [repairs[0]] + repairs[1..];
      (if Matches(repairs[0], keyword) then [repairs[0]] else []) + FilterRepairs(repairs[1..], keyword)
  }

  /** An empty keyword keeps every repair, in order. */
  lemma {:induction false} FilterEmptyKeyword(repairs: seq<Repair>)
    ensures FilterRepairs(repairs, "") == repairs
    decreases |repairs|
  {
    if repairs != [] {
      FilterEmptyKeyword(repairs[1..]);
      assert repairs == [repairs[0]] + repairs[1..];
      FilterCons(repairs[0], repairs[1..], "");
    }
  }

  /** A non-empty keyword keeps exactly the repairs whose type or shop name contains it. */
  lemma FilterByKeyword(repairs: seq<Repair>, keyword: string, x: Repair)
    requires keyword != []
    ensures x in FilterRepairs(repairs, keyword) <==>
      x in repairs && ((exists i :: 0 <= i && OccursAt(x.repairType, keyword, i)) || (exists i :: 0 <= i && OccursAt(x.shopLabel, keyword, i)))
  {
  }

  // ---------------------------------------------------------------------------
  // Sorting
  // ---------------------------------------------------------------------------

  predicate SortedNewestFirst(s: seq<Repair>)
  {
    forall i, j :: 0 <= i < j < |s| ==> s[i].repairedAt >= s[j].repairedAt
  }

  /** A newer repair in front of a sorted list keeps it sorted. */
  lemma SortedCons(h: Repair, s: seq<Repair>)
    requires SortedNewestFirst(s)
    requires s != [] ==> h.repairedAt >= s[0].repairedAt
    ensures SortedNewestFirst([h] + s)
  {
    var r := [h] + s;
    forall i, j | 0 <= i < j < |r| ensures r[i].repairedAt >= r[j].repairedAt {
      if i == 0 && j > 1 {
        assert r[1] == s[0] && r[j] == s[j - 1];
      }
    }
  }

  /** Places `x` before the first repair strictly older than it, so it stays in front of repairs of the same time. */
  function Insert(x: Repair, s: seq<Repair>): (r: seq<Repair>)
    requires SortedNewestFirst(s)
    ensures SortedNewestFirst(r)
    ensures multiset(r) == multiset(s) + multiset{x}
    ensures |r| == |s| + 1
    ensures r[0] == x || (s != [] && r[0] == s[0])
    decreases |s|
  {
    if s == [] || x.repairedAt >= s[0].repairedAt then
      SortedCons(x, s);
      [x] + s
    else
      var rest := Insert(x, s[1..]);
      assert s == [s[0]] + s[1..];
      SortedCons(s[0], rest);
      [s[0]] + rest
  }

  /**
   `.sort((a, b) => b.repairedAt - a.repairedAt)`: newest first. The engine's
   sort is stable, which this insertion sort is too: it inserts each repair
   in front of every later one with the same time.
   */
  function SortNewestFirst(s: seq<Repair>): (r: seq<Repair>)
    ensures SortedNewestFirst(r)
    ensures multiset(r) == multiset(s)
    ensures |r| == |s|
    decreases |s|
  {
    if s == [] then []
    else
      assert s == [s[0]] + s[1..];
      Insert(s[0], SortNewestFirst(s[1..]))
  }

  /** The repairs of `s` stamped at time `t`, in order. */
  function AtTime(s: seq<Repair>, t: int): seq<Repair>
    decreases |s|
  {
    if s == [] then [] else (if s[0].repairedAt == t then [s[0]] else []) + AtTime(s[1..], t)
  }

  /** The run of a list with a repair in front: that repair if it has the time, then the rest's run. */
  lemma AtTimeCons(h: Repair, s: seq<Repair>, t: int)
    ensures AtTime([h] + s, t) == (if h.repairedAt == t then [h] else []) + AtTime(s, t)
  {
    var r := [h] + s;
    assert r[0] == h && r[1..] == s;
  }

  /** Inserting adds the inserted repair to its own time's run, in front, and touches no other time. */
  lemma {:induction false} InsertAtTime(x: Repair, s: seq<Repair>, t: int)
    requires SortedNewestFirst(s)
    ensures AtTime(Insert(x, s), t) == (if x.repairedAt == t then [x] else []) + AtTime(s, t)
    decreases |s|
  {
    if s == [] || x.repairedAt >= s[0].repairedAt {
      assert Insert(x, s) == [x] + s;
      AtTimeCons(x, s, t);
    } else {
      var tail := s[1..];
      assert SortedNewestFirst(tail);
      var rest := Insert(x, tail);
      assert Insert(x, s) == [s[0]] + rest;
      InsertAtTime(x, tail, t);
      InsertBehind(x, s[0], tail, rest, t);
    }
  }

  /** The inductive step of `InsertAtTime`, for an `x` older than the head `h`. */
  lemma InsertBehind(x: Repair, h: Repair, tail: seq<Repair>, rest: seq<Repair>, t: int)
    requires x.repairedAt < h.repairedAt
    requires AtTime(rest, t) == (if x.repairedAt == t then [x] else []) + AtTime(tail, t)
    ensures AtTime([h] + rest, t) == (if x.repairedAt == t then [x] else []) + AtTime([h] + tail, t)
  {
    AtTimeCons(h, rest, t);
    AtTimeCons(h, tail, t);
  }

  /** Stability: repairs with the same time keep their relative order through the sort. */
  lemma {:induction false} SortIsStable(s: seq<Repair>, t: int)
    ensures AtTime(SortNewestFirst(s), t) == AtTime(s, t)
    decreases |s|
  {
    if s != [] {
      SortIsStable(s[1..], t);
      InsertAtTime(s[0], SortNewestFirst(s[1..]), t);
    }
  }

  /** Filtering a list with a repair in front: that repair if it matches, then the rest's matches. */
  lemma FilterCons(h: Repair, s: seq<Repair>, keyword: string)
    ensures FilterRepairs([h] + s, keyword) == (if Matches(h, keyword) then [h] else []) + FilterRepairs(s, keyword)
  {
    var r := [h] + s;
    assert r[0] == h && r[1..] == s;
  }

  /** Filtering keeps order: the repairs of one time come through in the order the store holds them. */
  lemma {:induction false} FilterAtTime(repairs: seq<Repair>, keyword: string, t: int)
    ensures AtTime(FilterRepairs(repairs, keyword), t) == FilterRepairs(AtTime(repairs, t), keyword)
    decreases |repairs|
  {
    if repairs != [] {
      var h, tail := repairs[0], repairs[1..];
      assert repairs == [h] + tail;
      var filtered, run := FilterRepairs(tail, keyword), AtTime(tail, t);
      FilterAtTime(tail, keyword, t);
      FilterCons(h, tail, keyword);
      AtTimeCons(h, tail, t);
      if Matches(h, keyword) && h.repairedAt == t {
        AtTimeCons(h, filtered, t);
        FilterCons(h, run, keyword);
      } else if Matches(h, keyword) {
        AtTimeCons(h, filtered, t);
        assert [] + AtTime(filtered, t) == AtTime(filtered, t);
        assert [] + run == run;
      } else if h.repairedAt == t {
        assert [] + filtered == filtered;
        FilterCons(h, run, keyword);
        assert [] + FilterRepairs(run, keyword) == FilterRepairs(run, keyword);
      } else {
        assert [] + filtered == filtered;
        assert [] + run == run;
      }
    }
  }

  /** On the page, repairs with the same time appear in the order the store holds them. */
  lemma PageKeepsStoreOrder(store: RepairsStore, t: int)
    ensures AtTime(FilteredRepairs(store), t) == FilterRepairs(AtTime(store.repairs, t), store.searchKeyword)
  {
    SortIsStable(FilterRepairs(store.repairs, store.searchKeyword), t);
    FilterAtTime(store.repairs, store.searchKeyword, t);
  }

  /** `filteredRepairs`: the matching repairs, newest first; `repairs` itself is a value and stays as it is. */
  function FilteredRepairs(store: RepairsStore): (r: seq<Repair>)
    ensures SortedNewestFirst(r)
    ensures multiset(r) == multiset(FilterRepairs(store.repairs, store.searchKeyword))
    ensures forall x :: x in r <==> x in store.repairs && Matches(x, store.searchKeyword)
  {
    var r := SortNewestFirst(FilterRepairs(store.repairs, store.searchKeyword));
    assert forall x :: x in r <==> x in multiset(r);
    r
  }

  /** With no keyword the list is a reordering of all repairs. */
  lemma NoKeywordShowsAll(store: RepairsStore)
    requires store.searchKeyword == ""
    ensures multiset(FilteredRepairs(store)) == multiset(store.repairs)
  {
    FilterEmptyKeyword(store.repairs);
  }

  // ---------------------------------------------------------------------------
  // Totals
  // ---------------------------------------------------------------------------

  /** `calculateTotalRepairsCount`. */
  function CalculateTotalRepairsCount(store: RepairsStore): (r: RepairsStore)
    ensures r.totalRepairsCount == |store.repairs|
    ensures r == store.(totalRepairsCount := |r.repairs|)
  {
    store.(totalRepairsCount := |store.repairs|)
  }

  /** The price of `r` when it was repaired in `month`, else nothing. */
  function PriceIn(r: Repair, month: YearMonth, localMonth: int -> YearMonth): int
  {
    if localMonth(r.repairedAt) == month then r.price else 0
  }

  /** The total price of the repairs done in `month`, as a reference definition. */
  function SumInMonth(repairs: seq<Repair>, month: YearMonth, localMonth: int -> YearMonth): int
    decreases |repairs|
  {
    if repairs == [] then 0
    else SumInMonth(repairs[..|repairs| - 1], month, localMonth) + PriceIn(repairs[|repairs| - 1], month, localMonth)
  }

  /** With no repair in the month the total is 0. */
  lemma {:induction false} SumInMonthNone(repairs: seq<Repair>, month: YearMonth, localMonth: int -> YearMonth)
    requires forall i :: 0 <= i < |repairs| ==> localMonth(repairs[i].repairedAt) != month
    ensures SumInMonth(repairs, month, localMonth) == 0
    decreases |repairs|
  {
    if repairs != [] {
      SumInMonthNone(repairs[..|repairs| - 1], month, localMonth);
    }
  }

  /** The total is additive, so a repair counts wherever it sits in the list. */
  lemma {:induction false} SumInMonthAppend(a: seq<Repair>, b: seq<Repair>, month: YearMonth, localMonth: int -> YearMonth)
    ensures SumInMonth(a + b, month, localMonth) == SumInMonth(a, month, localMonth) + SumInMonth(b, month, localMonth)
    decreases |b|
  {
    if b == [] {
      assert a + b == a;
    } else {
      assert (a + b)[..|a + b| - 1] == a + b[..|b| - 1];
      SumInMonthAppend(a, b[..|b| - 1], month, localMonth);
    }
  }

  /** `calculateRepairPriceSumThisMonth`: the `reduce` over the repairs; `now` is the clock's month and
      `localMonth` gives a timestamp's local year and month. */
  method CalculateRepairPriceSumThisMonth(store: RepairsStore, now: YearMonth, localMonth: int -> YearMonth)
    returns (r: RepairsStore)
    ensures r.repairPriceSumThisMonth == SumInMonth(store.repairs, now, localMonth)
    ensures r == store.(repairPriceSumThisMonth := r.repairPriceSumThisMonth)
  {
    var sum := 0;
    var i := 0;
    while i < |store.repairs|
      invariant 0 <= i <= |store.repairs|
      invariant sum == SumInMonth(store.repairs[..i], now, localMonth)
    {
      var repair := store.repairs[i];
      assert store.repairs[..i + 1][..i] == store.repairs[..i];
      if localMonth(repair.repairedAt) == now {
        sum := sum + repair.price;
      }
      i := i + 1;
    }
    assert store.repairs[..i] == store.repairs;
    r := store.(repairPriceSumThisMonth := sum);
  }

  // ---------------------------------------------------------------------------
  // Input
  // ---------------------------------------------------------------------------

  /** `updateSearchKeyword`: only the keyword changes, and the list shows the matches for the new one. */
  function UpdateSearchKeyword(store: RepairsStore, term: string): (r: RepairsStore)
    ensures r.searchKeyword == term
    ensures r.(searchKeyword := store.searchKeyword) == store
    ensures forall x :: x in FilteredRepairs(r) <==> x in store.repairs && Matches(x, term)
  {
    store.(searchKeyword := term)
  }

  /** `changeTab`: only the active tab changes, so the list is unaffected. */
  function ChangeTab(store: RepairsStore, tab: Tab): (r: RepairsStore)
    ensures r.activeTab == tab
    ensures r.(activeTab := store.activeTab) == store
    ensures FilteredRepairs(r) == FilteredRepairs(store)
  {
    store.(activeTab := tab)
  }
}

=== FILE: routes.dfy ===
/**
 The route table and `buildRoute`: a route's path with its `:key`
 placeholders filled in and the query parameters appended. The URL encoder
 is a parameter.
 */
module Routes {
  import opened Text

  datatype RouteName = Home | Repairs | Kakao

  /** `ROUTES`. */
  function RoutePath(name: RouteName): string
  {
    match name
    case Home => "/"
    case Repairs => "/repairs"
    case Kakao => "/kakao"
  }

  /** Every path is absolute, and no two routes share one. */
  lemma RoutePathsDistinct(a: RouteName, b: RouteName)
    ensures RoutePath(a) != [] && RoutePath(a)[0] == '/'
    ensures RoutePath(a) == RoutePath(b) ==> a == b
  {
  }

  /** The `forEach` over `Object.entries(pathParams)`: each entry, in order, replaces the first
      occurrence of `:key` in the path built so far with the encoded value. */
  function ApplyPathParams(path: string, params: seq<(string, string)>, encode: string -> string): string
    decreases |params|
  {
    if params == [] then path
    else ApplyPathParams(ReplaceFirst(path, ":" + params[0].0, encode(params[0].1)), params[1..], encode)
  }

  /** `key=value`, both encoded. */
  function QueryPiece(param: (string, string), encode: string -> string): (piece: string)
    ensures piece != []
    ensures var k := encode(param.0);
      |piece| == |k| + 1 + |encode(param.1)| &&
      piece[..|k|] == k && piece[|k|] == '=' && piece[|k| + 1..] == encode(param.1)
  {
    encode(param.0) + "=" + encode(param.1)
  }

  function QueryPieces(params: seq<(string, string)>, encode: string -> string): (pieces: seq<string>)
    ensures |pieces| == |params|
    ensures forall i :: 0 <= i < |params| ==> pieces[i] == QueryPiece(params[i], encode)
    decreases |params|
  {
    if params == [] then [] else [QueryPiece(params[0], encode)] + QueryPieces(params[1..], encode)
  }

  /** The query string: the pieces joined by `&`. */
  function QueryString(params: seq<(string, string)>, encode: string -> string): string
  {
    Join(QueryPieces(params, encode), "&")
  }

  /** The query string is empty exactly when there are no query parameters. */
  lemma QueryStringEmpty(params: seq<(string, string)>, encode: string -> string)
    ensures QueryString(params, encode) == [] <==> params == []
  {
    JoinNonEmpty(QueryPieces(params, encode), "&");
  }

  /** `buildRoute`: the filled-in path, then `?` and the query string when there is one. */
  function BuildRoute(name: RouteName, pathParams: seq<(string, string)>, queryParams: seq<(string, string)>,
                      encode: string -> string): (url: string)
    ensures queryParams == [] ==> url == ApplyPathParams(RoutePath(name), pathParams, encode)
    ensures queryParams != [] ==>
      url == ApplyPathParams(RoutePath(name), pathParams, encode) + "?" + QueryString(queryParams, encode)
  {
    QueryStringEmpty(queryParams, encode);
    var path := ApplyPathParams(RoutePath(name), pathParams, encode);
    var query := QueryString(queryParams, encode);
    if query != [] then path + "?" + query else path
  }

  /** A path parameter replaces the first `:key` only: the text before it holds no earlier occurrence and
      the text after it, later occurrences included, is kept as it was. */
  lemma PathParamReplacesFirstOnly(path: string, key: string, value: string, encode: string -> string)
    ensures var r := ApplyPathParams(path, [(key, value)], encode);
      var pat := ":" + key;
      && (!Contains(path, pat) ==> r == path)
      && (Contains(path, pat) ==>
            var i := IndexOf(path, pat).value;
            && r == path[..i] + encode(value) + path[i + |pat|..]
            && forall j :: 0 <= j < i ==> !OccursAt(path, pat, j))
  {
  }

  /** A path without a colon has no placeholder, so path parameters leave it unchanged. */
  lemma {:induction false} NoPlaceholderUnchanged(path: string, params: seq<(string, string)>, encode: string -> string)
    requires ':' !in path
    ensures ApplyPathParams(path, params, encode) == path
    decreases |params|
  {
    if params != [] {
      AbsentCharNotContained(path, ":" + params[0].0, ':');
      NoPlaceholderUnchanged(path, params[1..], encode);
    }
  }

  /** With the current table the path parameters never change the path, so the url starts with the route's
      path and is exactly that path when there are no query parameters. */
  lemma BuildRouteStartsWithPath(name: RouteName, pathParams: seq<(string, string)>, queryParams: seq<(string, string)>,
                                 encode: string -> string)
    ensures var url := BuildRoute(name, pathParams, queryParams, encode);
      && RoutePath(name) <= url
      && (queryParams == [] <==> url == RoutePath(name))
      && (queryParams != [] ==> url[|RoutePath(name)|] == '?')
  {
    NoPlaceholderUnchanged(RoutePath(name), pathParams, encode);
  }

  /** `buildRoute('REPAIRS')` is "/repairs". */
  lemma RepairsRoute(encode: string -> string)
    ensures BuildRoute(Repairs, [], [], encode) == "/repairs"
  {
  }

  /** One more query parameter appends `&key=value`. */
  lemma {:induction false} QueryStringSnoc(params: seq<(string, string)>, p: (string, string), encode: string -> string)
    requires params != []
    ensures QueryString(params + [p], encode) == QueryString(params, encode) + "&" + QueryPiece(p, encode)
    decreases |params|
  {
    var pieces := QueryPieces(params + [p], encode);
    assert QueryPieces(params + [p], encode) == QueryPieces(params, encode) + [QueryPiece(p, encode)];
    if |params| > 1 {
      assert (params + [p])[1..] == params[1..] + [p];
      QueryStringSnoc(params[1..], p, encode);
    }
  }
}

=== FILE: self_check_model.dfy ===
/**
 The self-check record: sixteen yes/no issue flags, a constructor that
 defaults each missing flag to `false`, and `copyWith`.
 */
module SelfCheckModel {
  import opened Nullish

  /** The sixteen issues a self-check asks about, grouped as motor, battery, brake, tyre, seat, other parts and frame. */
  datatype Issue =
    | MotorNoise
    | AbnormalSpeed
    | BatteryBlinking
    | ChargingNotStart
    | BatteryDischargeFast
    | IncompleteCharging
    | BreakDelay
    | BreakPadIssue
    | TubePunctureFrequent
    | TireWearFrequent
    | SeatUnstable
    | SeatCoverIssue
    | FootRestLoose
    | AntislipWorn
    | FrameNoise
    | FrameCrack

  /** The object literal handed to the constructor or to `copyWith`; every key is optional. Dates are timestamps. */
  datatype SelfCheckInput = SelfCheckInput(
    id: Prop<string>,
    motorNoise: Prop<bool>,
    abnormalSpeed: Prop<bool>,
    batteryBlinking: Prop<bool>,
    chargingNotStart: Prop<bool>,
    batteryDischargeFast: Prop<bool>,
    incompleteCharging: Prop<bool>,
    breakDelay: Prop<bool>,
    breakPadIssue: Prop<bool>,
    tubePunctureFrequent: Prop<bool>,
    tireWearFrequent: Prop<bool>,
    seatUnstable: Prop<bool>,
    seatCoverIssue: Prop<bool>,
    footRestLoose: Prop<bool>,
    antislipWorn: Prop<bool>,
    frameNoise: Prop<bool>,
    frameCrack: Prop<bool>,
    createdAt: Prop<int>,
    updatedAt: Prop<int>)

  datatype SelfCheck = SelfCheck(
    id: string,
    motorNoise: bool,
    abnormalSpeed: bool,
    batteryBlinking: bool,
    chargingNotStart: bool,
    batteryDischargeFast: bool,
    incompleteCharging: bool,
    breakDelay: bool,
    breakPadIssue: bool,
    tubePunctureFrequent: bool,
    tireWearFrequent: bool,
    seatUnstable: bool,
    seatCoverIssue: bool,
    footRestLoose: bool,
    antislipWorn: bool,
    frameNoise: bool,
    frameCrack: bool,
    createdAt: int,
    updatedAt: int)

  const NoChanges: SelfCheckInput := SelfCheckInput(Absent, Absent, Absent, Absent, Absent, Absent, Absent, Absent, Absent, Absent, Absent, Absent, Absent, Absent, Absent, Absent, Absent, Absent, Absent)

  /** The value of one issue flag of a record. */
  function Flag(s: SelfCheck, i: Issue): bool
  {
    match i
    case MotorNoise => s.motorNoise
    case AbnormalSpeed => s.abnormalSpeed
    case BatteryBlinking => s.batteryBlinking
    case ChargingNotStart => s.chargingNotStart
    case BatteryDischargeFast => s.batteryDischargeFast
    case IncompleteCharging => s.incompleteCharging
    case BreakDelay => s.breakDelay
    case BreakPadIssue => s.breakPadIssue
    case TubePunctureFrequent => s.tubePunctureFrequent
    case TireWearFrequent => s.tireWearFrequent
    case SeatUnstable => s.seatUnstable
    case SeatCoverIssue => s.seatCoverIssue
    case FootRestLoose => s.footRestLoose
    case AntislipWorn => s.antislipWorn
    case FrameNoise => s.frameNoise
    case FrameCrack => s.frameCrack
  }

  /** The property for one issue flag in an input literal. */
  function InputFlag(m: SelfCheckInput, i: Issue): Prop<bool>
  {
    match i
    case MotorNoise => m.motorNoise
    case AbnormalSpeed => m.abnormalSpeed
    case BatteryBlinking => m.batteryBlinking
    case ChargingNotStart => m.chargingNotStart
    case BatteryDischargeFast => m.batteryDischargeFast
    case IncompleteCharging => m.incompleteCharging
    case BreakDelay => m.breakDelay
    case BreakPadIssue => m.breakPadIssue
    case TubePunctureFrequent => m.tubePunctureFrequent
    case TireWearFrequent => m.tireWearFrequent
    case SeatUnstable => m.seatUnstable
    case SeatCoverIssue => m.seatCoverIssue
    case FootRestLoose => m.footRestLoose
    case AntislipWorn => m.antislipWorn
    case FrameNoise => m.frameNoise
    case FrameCrack => m.frameCrack
  }

  /** The constructor; `now` stands for the clock read by `new Date()`. */
  function FromInput(m: SelfCheckInput, now: int): (s: SelfCheck)
    ensures s.id == (if m.id.Given? then m.id.value else "")
    ensures s.createdAt == (if m.createdAt.Given? then m.createdAt.value else now)
    ensures s.updatedAt == (if m.updatedAt.Given? then m.updatedAt.value else now)
  {
    SelfCheck(
      Coalesce(m.id, ""),
      Coalesce(m.motorNoise, false),
      Coalesce(m.abnormalSpeed, false),
      Coalesce(m.batteryBlinking, false),
      Coalesce(m.chargingNotStart, false),
      Coalesce(m.batteryDischargeFast, false),
      Coalesce(m.incompleteCharging, false),
      Coalesce(m.breakDelay, false),
      Coalesce(m.breakPadIssue, false),
      Coalesce(m.tubePunctureFrequent, false),
      Coalesce(m.tireWearFrequent, false),
      Coalesce(m.seatUnstable, false),
      Coalesce(m.seatCoverIssue, false),
      Coalesce(m.footRestLoose, false),
      Coalesce(m.antislipWorn, false),
      Coalesce(m.frameNoise, false),
      Coalesce(m.frameCrack, false),
      Coalesce(m.createdAt, now),
      Coalesce(m.updatedAt, now))
  }

  /** One flag of a constructed record: the supplied value, `false` included, or `false` when missing. */
  lemma FromInputFlag(m: SelfCheckInput, now: int, i: Issue)
    ensures Flag(FromInput(m, now), i) == (InputFlag(m, i).Given? && InputFlag(m, i).value)
  {
    match i
    case MotorNoise =>
    case AbnormalSpeed =>
    case BatteryBlinking =>
    case ChargingNotStart =>
    case BatteryDischargeFast =>
    case IncompleteCharging =>
    case BreakDelay =>
    case BreakPadIssue =>
    case TubePunctureFrequent =>
    case TireWearFrequent =>
    case SeatUnstable =>
    case SeatCoverIssue =>
    case FootRestLoose =>
    case AntislipWorn =>
    case FrameNoise =>
    case FrameCrack =>
  }

  /** Every flag of a constructed record is its supplied value, or `false` when missing. */
  lemma FromInputFlags(m: SelfCheckInput, now: int)
    ensures forall i :: Flag(FromInput(m, now), i) == (InputFlag(m, i).Given? && InputFlag(m, i).value)
  {
    forall i ensures Flag(FromInput(m, now), i) == (InputFlag(m, i).Given? && InputFlag(m, i).value) {
      FromInputFlag(m, now, i);
    }
  }

  /** An empty literal raises no issue. */
  lemma FromEmptyInput(now: int)
    ensures var s := FromInput(NoChanges, now);
      s.id == "" && (forall i :: !Flag(s, i)) && s.createdAt == now && s.updatedAt == now
  {
  }

  /** Every field of a record, written out as constructor input. */
  function ToInput(s: SelfCheck): SelfCheckInput
  {
    SelfCheckInput(
      Given(s.id),
      Given(s.motorNoise),
      Given(s.abnormalSpeed),
      Given(s.batteryBlinking),
      Given(s.chargingNotStart),
      Given(s.batteryDischargeFast),
      Given(s.incompleteCharging),
      Given(s.breakDelay),
      Given(s.breakPadIssue),
      Given(s.tubePunctureFrequent),
      Given(s.tireWearFrequent),
      Given(s.seatUnstable),
      Given(s.seatCoverIssue),
      Given(s.footRestLoose),
      Given(s.antislipWorn),
      Given(s.frameNoise),
      Given(s.frameCrack),
      Given(s.createdAt),
      Given(s.updatedAt))
  }

  /** Supplying every field reproduces the record whatever the clock says. */
  lemma FromInputRoundTrip(s: SelfCheck, now: int)
    ensures FromInput(ToInput(s), now) == s
  {
  }

  /** `{...this, ...changes, createdAt: …, updatedAt: …}`. */
  function SpreadInput(s: SelfCheck, changes: SelfCheckInput): SelfCheckInput
  {
    SelfCheckInput(
      Spread(s.id, changes.id),
      Spread(s.motorNoise, changes.motorNoise),
      Spread(s.abnormalSpeed, changes.abnormalSpeed),
      Spread(s.batteryBlinking, changes.batteryBlinking),
      Spread(s.chargingNotStart, changes.chargingNotStart),
      Spread(s.batteryDischargeFast, changes.batteryDischargeFast),
      Spread(s.incompleteCharging, changes.incompleteCharging),
      Spread(s.breakDelay, changes.breakDelay),
      Spread(s.breakPadIssue, changes.breakPadIssue),
      Spread(s.tubePunctureFrequent, changes.tubePunctureFrequent),
      Spread(s.tireWearFrequent, changes.tireWearFrequent),
      Spread(s.seatUnstable, changes.seatUnstable),
      Spread(s.seatCoverIssue, changes.seatCoverIssue),
      Spread(s.footRestLoose, changes.footRestLoose),
      Spread(s.antislipWorn, changes.antislipWorn),
      Spread(s.frameNoise, changes.frameNoise),
      Spread(s.frameCrack, changes.frameCrack),
      Given(Override(s.createdAt, changes.createdAt)),
      Given(Override(s.updatedAt, changes.updatedAt)))
  }

  /** `copyWith`: the constructor applied to the spread; both dates are given, so the clock is never read. */
  function CopyWith(s: SelfCheck, changes: SelfCheckInput): (r: SelfCheck)
    ensures r.id == Merge(s.id, changes.id, "")
    ensures r.createdAt == Override(s.createdAt, changes.createdAt)
    ensures r.updatedAt == Override(s.updatedAt, changes.updatedAt)
  {
    FromInput(SpreadInput(s, changes), s.createdAt)
  }

  /** One flag after `copyWith`: kept when `changes` leaves it out, reset to `false` when it is `undefined`,
      the given value otherwise. */
  lemma CopyWithFlag(s: SelfCheck, changes: SelfCheckInput, i: Issue)
    ensures Flag(CopyWith(s, changes), i) == Merge(Flag(s, i), InputFlag(changes, i), false)
  {
    match i
    case MotorNoise =>
    case AbnormalSpeed =>
    case BatteryBlinking =>
    case ChargingNotStart =>
    case BatteryDischargeFast =>
    case IncompleteCharging =>
    case BreakDelay =>
    case BreakPadIssue =>
    case TubePunctureFrequent =>
    case TireWearFrequent =>
    case SeatUnstable =>
    case SeatCoverIssue =>
    case FootRestLoose =>
    case AntislipWorn =>
    case FrameNoise =>
    case FrameCrack =>
  }

  /** `copyWith(changes)` changes exactly the flags `changes` mentions. */
  lemma CopyWithFlags(s: SelfCheck, changes: SelfCheckInput)
    ensures forall i :: Flag(CopyWith(s, changes), i) == Merge(Flag(s, i), InputFlag(changes, i), false)
    ensures forall i :: InputFlag(changes, i).Absent? ==> Flag(CopyWith(s, changes), i) == Flag(s, i)
  {
    forall i ensures Flag(CopyWith(s, changes), i) == Merge(Flag(s, i), InputFlag(changes, i), false) {
      CopyWithFlag(s, changes, i);
    }
  }

  /** `copyWith({})` preserves the id, the dates and every flag. */
  lemma CopyWithNoChanges(s: SelfCheck)
    ensures CopyWith(s, NoChanges) == s
  {
  }

  /** Giving every field replaces the record. */
  lemma CopyWithEverything(s: SelfCheck, t: SelfCheck)
    ensures CopyWith(s, ToInput(t)) == t
  {
    assert SpreadInput(s, ToInput(t)) == ToInput(t);
    FromInputRoundTrip(t, s.createdAt);
  }

  /** Raising one issue leaves the other fifteen flags as they were. */
  lemma CopyWithOneFlag(s: SelfCheck, value: bool)
    ensures var r := CopyWith(s, NoChanges.(frameCrack := Given(value)));
      && r.frameCrack == value
      && (forall i :: i != FrameCrack ==> Flag(r, i) == Flag(s, i))
      && r.id == s.id && r.createdAt == s.createdAt
  {
    var changes := NoChanges.(frameCrack := Given(value));
    CopyWithFlags(s, changes);
    assert forall i :: i != FrameCrack ==> InputFlag(changes, i).Absent?;
  }
}

=== FILE: sign_in_store.dfy ===
/**
 The phone sign-in store: a phone number and a one-time code, a 300-second
 expiry countdown, a 30-second resend cooldown, and the flags the sign-in
 screen enables its buttons by.

 The two `setInterval` handles become the booleans `timerRunning` and
 `cooldownRunning`; each firing of an interval is an explicit tick. The
 Firebase confirmation object becomes the boolean `codeRequested`, and each
 asynchronous call is split at its `await` into a begin step and a complete
 step whose outcome is a parameter.
 */
module SignInStore {
  import opened Nullish
  import opened Text

  const ExpirationTime: nat := 300
  const CooldownTime: nat := 30
  const VerificationCodeLength: nat := 6

  datatype VerificationError = RequestFailed | CodeRejected

  function ErrorText(e: VerificationError): string
  {
    match e
    case RequestFailed => "인증번호 요청에 실패했습니다. 다시 시도해주세요."
    case CodeRejected => "인증번호를 다시 확인해주세요"
  }

  const ExpiredText: string := "인증시간이 만료됐어요"

  datatype SignIn = SignIn(
    phoneNumber: string,
    verificationCode: string,
    codeRequested: bool,
    expirationTime: nat,
    cooldownTime: nat,
    verificationError: Option<VerificationError>,
    loading: bool,
    verified: bool,
    timerRunning: bool,
    cooldownRunning: bool)

  /** The store as created, and as `reset` leaves it. */
  const Initial: SignIn := SignIn("", "", false, ExpirationTime, 0, None, false, false, false, false)

  // ---------------------------------------------------------------------------
  // Validators
  // ---------------------------------------------------------------------------

  /** `s.replace(/-/g, '')`; `WithoutDashesContents` and `WithoutDashesAppend` state what is kept and in which order. */
  function WithoutDashes(s: string): (r: string)
    ensures '-' !in r
    ensures |r| <= |s|
  {
    if s == [] then [] else (if s[0] == '-' then [] else [s[0]]) + WithoutDashes(s[1..])
  }

  /** Removing dashes works piecewise, so the kept characters stay in their order; a single character is kept iff it is not a dash. */
  lemma {:induction false} WithoutDashesAppend(a: string, b: string)
    ensures WithoutDashes(a + b) == WithoutDashes(a) + WithoutDashes(b)
    ensures |a| == 1 ==> WithoutDashes(a) == (if a[0] == '-' then [] else a)
    decreases |a|
  {
    if a == [] {
      assert a + b == b;
    } else {
      assert (a + b)[0] == a[0];
      assert (a + b)[1..] == a[1..] + b;
      WithoutDashesAppend(a[1..], b);
    }
  }

  /** Every character other than a dash is kept exactly as often as it occurs. */
  lemma {:induction false} WithoutDashesContents(s: string)
    ensures forall c :: c != '-' ==> multiset(WithoutDashes(s))[c] == multiset(s)[c]
    decreases |s|
  {
    if s != [] {
      WithoutDashesContents(s[1..]);
      assert s == [s[0]] + s[1..];
    }
  }

  /** A string without dashes is left as it is. */
  lemma {:induction false} WithoutDashesNoDash(s: string)
    requires '-' !in s
    ensures WithoutDashes(s) == s
    decreases |s|
  {
    if s != [] {
      WithoutDashesNoDash(s[1..]);
    }
  }

  /** The third character the phone pattern accepts, as written: the class `[0|1|6|7|8|9]` lists `|` as a member. */
  predicate MobilePrefixCharAsWritten(c: char)
  {
    c in "0|16789"
  }

  /** The third digit of a Korean mobile number: 010, 011, 016, 017, 018 or 019. */
  predicate MobilePrefixDigit(c: char)
  {
    c in "016789"
  }

  /** `^01([0|1|6|7|8|9])([0-9]{3,4})([0-9]{4})$` on the number without dashes, as written. */
  predicate ValidPhoneNumberAsWritten(phone: string)
  {
    var p := WithoutDashes(phone);
    (|p| == 10 || |p| == 11) && p[0] == '0' && p[1] == '1' && MobilePrefixCharAsWritten(p[2]) && AllDigits(p[3..])
  }

  /** `validPhoneNumber`, with the class read as the digits it is meant to list. */
  function ValidPhoneNumber(phone: string): (b: bool)
    ensures b ==> AllDigits(WithoutDashes(phone))
    ensures b ==> ValidPhoneNumberAsWritten(phone)
  {
    var p := WithoutDashes(phone);
    (|p| == 10 || |p| == 11) && p[0] == '0' && p[1] == '1' && MobilePrefixDigit(p[2]) && AllDigits(p[3..])
  }

  /** A digit-only string has no dash to remove. */
  lemma DigitsWithoutDashes(p: string)
    requires AllDigits(p)
    ensures WithoutDashes(p) == p
  {
    assert forall i :: 0 <= i < |p| ==> p[i] != '-';
    WithoutDashesNoDash(p);
  }

  /** For a digit-only string: valid iff 10 or 11 digits starting with "01" and a mobile prefix digit. */
  lemma ValidPhoneNumberOfDigits(p: string)
    requires AllDigits(p)
    ensures ValidPhoneNumber(p) <==>
      (|p| == 10 || |p| == 11) && p[..2] == "01" && p[2] in {'0', '1', '6', '7', '8', '9'}
  {
    DigitsWithoutDashes(p);
    if |p| >= 3 {
      assert AllDigits(p[3..]);
    }
  }

  /** As written the pattern accepts a number whose third character is a pipe, such as "01|1234567". */
  lemma PipeAcceptedAsWritten(rest: string)
    requires AllDigits(rest) && |rest| == 7
    ensures ValidPhoneNumberAsWritten("01|" + rest)
    ensures !ValidPhoneNumber("01|" + rest)
  {
    var p := "01|" + rest;
    assert forall i :: 0 <= i < |p| ==> p[i] != '-' by {
      forall i | 0 <= i < |p| ensures p[i] != '-' {
        if i >= 3 {
          assert p[i] == rest[i - 3];
        }
      }
    }
    WithoutDashesNoDash(p);
    assert p[2] == '|';
    assert p[3..] == rest;
  }

  /** On digit-only strings the two readings agree. */
  lemma PhonePatternsAgreeOnDigits(p: string)
    requires AllDigits(p)
    ensures ValidPhoneNumber(p) <==> ValidPhoneNumberAsWritten(p)
  {
    DigitsWithoutDashes(p);
    if |p| >= 3 {
      assert IsDigit(p[2]);
      assert AllDigits(p[3..]);
    }
  }

  /** `/^\d{6}$/`. */
  predicate ValidVerificationCode(code: string)
  {
    |code| == VerificationCodeLength && AllDigits(code)
  }

  // ---------------------------------------------------------------------------
  // Getters
  // ---------------------------------------------------------------------------

  predicate TimerActive(s: SignIn)
  {
    s.timerRunning && s.expirationTime > 0 && !s.verified
  }

  predicate CooldownActive(s: SignIn)
  {
    s.cooldownRunning && s.cooldownTime > 0
  }

  predicate TimerExpired(s: SignIn)
  {
    s.expirationTime <= 0
  }

  predicate Valid(s: SignIn)
  {
    ValidVerificationCode(s.verificationCode) && !TimerExpired(s) && s.verified
  }

  /** `errorMessage`: the expiry message wins over any stored error. */
  function ErrorMessage(s: SignIn): (m: Option<string>)
    ensures TimerExpired(s) ==> m == Some(ExpiredText)
    ensures !TimerExpired(s) && s.verificationError.None? ==> m.None?
    ensures !TimerExpired(s) && s.verificationError.Some? ==> m == Some(ErrorText(s.verificationError.value))
  {
    if TimerExpired(s) then Some(ExpiredText)
    else match s.verificationError
      case None => None
      case Some(e) => Some(ErrorText(e))
  }

  /** The three messages are distinct, so the message identifies its cause. */
  lemma ErrorMessagesDistinct(s: SignIn, t: SignIn)
    requires !TimerExpired(s) && !TimerExpired(t)
    ensures ErrorMessage(s) == ErrorMessage(t) ==> s.verificationError == t.verificationError
    ensures ErrorMessage(s) != Some(ExpiredText)
  {
  }

  /**
   * Whether a code may be requested. The phone check is the corrected pattern
   * `ValidPhoneNumber`, not the pattern as written (`ValidPhoneNumberAsWritten`);
   * the two agree on every store the view model can reach
   * (`ReachablePhoneCheckAgrees`), so the guard behaves as the source's does.
   */
  predicate CanRequestVerification(s: SignIn)
  {
    !CooldownActive(s) && !s.loading && ValidPhoneNumber(s.phoneNumber)
  }

  predicate CanVerifyCode(s: SignIn)
  {
    ValidVerificationCode(s.verificationCode) && !s.loading && !TimerExpired(s) && !s.verified && s.codeRequested
  }

  /** An expired code can never be submitted and always shows the expiry message; a verified one cannot be resubmitted. */
  lemma ExpiredBlocksVerify(s: SignIn)
    ensures TimerExpired(s) ==> !CanVerifyCode(s) && !Valid(s) && ErrorMessage(s) == Some(ExpiredText)
    ensures s.verified ==> !CanVerifyCode(s) && !TimerActive(s)
    ensures s.loading ==> !CanVerifyCode(s) && !CanRequestVerification(s)
  {
  }

  /** `expirationTimeDisplayString`: minutes, a colon, and the seconds padded to two digits. */
  function ExpirationDisplay(seconds: nat): (r: string)
    ensures |r| >= 4 && r[|r| - 3] == ':'
  {
    NatToString(seconds / 60) + ":" + PadStart(NatToString(seconds % 60), 2, '0')
  }

  /** `expirationTimeScreenReaderString`: "<m>분 <s>초 남음", the seconds unpadded. */
  function ExpirationScreenReaderText(seconds: nat): (r: string)
    ensures |r| > |" 남음"|
  {
    NatToString(seconds / 60) + "분 " + NatToString(seconds % 60) + "초 남음"
  }

  /** A leading zero does not change a decimal value. */
  lemma {:induction false} DecimalValueLeadingZero(s: string)
    requires AllDigits(s)
    ensures AllDigits("0" + s) && DecimalValue("0" + s) == DecimalValue(s)
    decreases |s|
  {
    var z := "0" + s;
    if s == [] {
      assert DecimalValue(z[..0]) == 0;
    } else {
      assert z[..|z| - 1] == "0" + s[..|s| - 1];
      DecimalValueLeadingZero(s[..|s| - 1]);
    }
  }

  /** The two-digit seconds field reads back as the seconds. */
  lemma PaddedSeconds(seconds: nat)
    requires seconds < 60
    ensures var p := PadStart(NatToString(seconds), 2, '0');
      |p| == 2 && AllDigits(p) && DecimalValue(p) == seconds
  {
    var d := NatToString(seconds);
    DecimalValueOfNatToString(seconds);
    if seconds < 10 {
      assert PadStart(d, 2, '0') == "0" + d;
      DecimalValueLeadingZero(d);
    } else {
      assert NatToString(seconds / 10) == [DigitChar(seconds / 10)];
    }
  }

  /** Reading the display back: digits giving the minutes, a colon, and two digits giving the seconds. */
  lemma ExpirationDisplayReadBack(seconds: nat) returns (minutes: string, secs: string)
    ensures ExpirationDisplay(seconds) == minutes + ":" + secs
    ensures |minutes| >= 1 && AllDigits(minutes) && DecimalValue(minutes) == seconds / 60
    ensures |secs| == 2 && AllDigits(secs) && DecimalValue(secs) == seconds % 60
  {
    minutes := NatToString(seconds / 60);
    secs := PadStart(NatToString(seconds % 60), 2, '0');
    DecimalValueOfNatToString(seconds / 60);
    PaddedSeconds(seconds % 60);
  }

  /** The colon before a two-character tail splits a text in one way only. */
  lemma ColonSplit(m1: string, p1: string, m2: string, p2: string)
    requires |p1| == 2 && |p2| == 2
    requires m1 + ":" + p1 == m2 + ":" + p2
    ensures m1 == m2 && p1 == p2
  {
    var r1, r2 := m1 + ":" + p1, m2 + ":" + p2;
    assert r1[..|r1| - 3] == m1 && r2[..|r2| - 3] == m2;
    assert r1[|r1| - 2..] == p1 && r2[|r2| - 2..] == p2;
  }

  /** Different times show different texts. */
  lemma ExpirationDisplayInjective(t1: nat, t2: nat)
    requires ExpirationDisplay(t1) == ExpirationDisplay(t2)
    ensures t1 == t2
  {
    var m1, p1 := ExpirationDisplayReadBack(t1);
    var m2, p2 := ExpirationDisplayReadBack(t2);
    ColonSplit(m1, p1, m2, p2);
  }

  /** Reading the screen-reader text back: the minutes, "분 ", the unpadded seconds, then "초 남음". */
  lemma ExpirationScreenReaderReadBack(seconds: nat) returns (minutes: string, secs: string)
    ensures ExpirationScreenReaderText(seconds) == minutes + "분 " + secs + "초 남음"
    ensures |minutes| >= 1 && AllDigits(minutes) && DecimalValue(minutes) == seconds / 60
    ensures |secs| >= 1 && AllDigits(secs) && DecimalValue(secs) == seconds % 60
  {
    minutes := NatToString(seconds / 60);
    secs := NatToString(seconds % 60);
    DecimalValueOfNatToString(seconds / 60);
    DecimalValueOfNatToString(seconds % 60);
  }

  /** The number of digits `u` starts with. */
  function DigitRun(u: string): nat
    decreases |u|
  {
    if u == [] || !IsDigit(u[0]) then 0 else 1 + DigitRun(u[1..])
  }

  /** Digits followed by a non-digit: the digit run is exactly the digits. */
  lemma {:induction false} DigitRunLength(m: string, rest: string)
    requires AllDigits(m)
    requires rest != [] && !IsDigit(rest[0])
    ensures DigitRun(m + rest) == |m|
    decreases |m|
  {
    var u := m + rest;
    if m == [] {
      assert u == rest;
    } else {
      assert u[0] == m[0] && u[1..] == m[1..] + rest;
      DigitRunLength(m[1..], rest);
    }
  }

  /** The first non-digit ends the minutes, so the screen-reader text splits in one way only. */
  lemma UnitSplit(m1: string, s1: string, m2: string, s2: string)
    requires AllDigits(m1) && AllDigits(m2)
    requires m1 + "분 " + s1 + "초 남음" == m2 + "분 " + s2 + "초 남음"
    ensures m1 == m2 && s1 == s2
  {
    var u1, u2 := m1 + "분 " + s1, m2 + "분 " + s2;
    assert (u1 + "초 남음")[..|u1|] == u1;
    assert (u2 + "초 남음")[..|u2|] == u2;
    assert u1 == u2;
    DigitRunLength(m1, "분 " + s1);
    DigitRunLength(m2, "분 " + s2);
    assert m1 + ("분 " + s1) == u1 && m2 + ("분 " + s2) == u2;
    assert u1[..|m1|] == m1 && u2[..|m2|] == m2;
    assert u1[|m1| + 2..] == s1 && u2[|m2| + 2..] == s2;
  }

  /** Different times are read out differently. */
  lemma ExpirationScreenReaderInjective(t1: nat, t2: nat)
    requires ExpirationScreenReaderText(t1) == ExpirationScreenReaderText(t2)
    ensures t1 == t2
  {
    var m1, p1 := ExpirationScreenReaderReadBack(t1);
    var m2, p2 := ExpirationScreenReaderReadBack(t2);
    UnitSplit(m1, p1, m2, p2);
  }

  /** The full five minutes show as "5:00". */
  lemma FullExpirationDisplay()
    ensures ExpirationDisplay(ExpirationTime) == "5:00"
  {
    assert ExpirationTime / 60 == 5 && ExpirationTime % 60 == 0;
    assert DigitChar(5) == '5' && DigitChar(0) == '0';
    assert NatToString(5) == "5";
    assert NatToString(0) == "0";
    assert PadStart("0", 2, '0') == "00";
  }

  // ---------------------------------------------------------------------------
  // Input
  // ---------------------------------------------------------------------------

  /** `updatePhoneNumber`: keeps the digits of the input, in order. */
  function UpdatePhoneNumber(s: SignIn, phoneNumber: string): (r: SignIn)
    ensures r == s.(phoneNumber := KeepDigits(phoneNumber))
    ensures AllDigits(r.phoneNumber)
  {
    s.(phoneNumber := KeepDigits(phoneNumber))
  }

  /** Re-entering the stored number changes nothing, and on a stored number both pattern readings agree. */
  lemma UpdatePhoneNumberIdempotent(s: SignIn, phoneNumber: string)
    ensures var r := UpdatePhoneNumber(s, phoneNumber);
      && UpdatePhoneNumber(r, r.phoneNumber) == r
      && (ValidPhoneNumber(r.phoneNumber) <==> ValidPhoneNumberAsWritten(r.phoneNumber))
  {
    KeepDigitsIdempotent(phoneNumber);
    PhonePatternsAgreeOnDigits(KeepDigits(phoneNumber));
  }

  /** `updateVerificationCode`: the first six digits of the input; any stored error is cleared. */
  function UpdateVerificationCode(s: SignIn, code: string): (r: SignIn)
    ensures AllDigits(r.verificationCode) && |r.verificationCode| <= VerificationCodeLength
    ensures r.verificationError.None?
    ensures r.verificationCode <= KeepDigits(code)
    ensures |r.verificationCode| == if |KeepDigits(code)| < VerificationCodeLength then |KeepDigits(code)| else VerificationCodeLength
    ensures ValidVerificationCode(r.verificationCode) <==> |KeepDigits(code)| >= VerificationCodeLength
    ensures r == s.(verificationCode := r.verificationCode, verificationError := None)
  {
    var digits := KeepDigits(code);
    var kept := if |digits| <= VerificationCodeLength then digits else digits[..VerificationCodeLength];
    s.(verificationCode := kept, verificationError := None)
  }

  // ---------------------------------------------------------------------------
  // Timers
  // ---------------------------------------------------------------------------

  function StopTimer(s: SignIn): SignIn
  {
    s.(timerRunning := false)
  }

  function StopCooldown(s: SignIn): SignIn
  {
    s.(cooldownRunning := false)
  }

  /** `startTimer`: any running interval is replaced by a fresh 300-second countdown. */
  function StartTimer(s: SignIn): (r: SignIn)
    ensures r.expirationTime == ExpirationTime && r.timerRunning
    ensures r == s.(expirationTime := ExpirationTime, timerRunning := true)
  {
    StopTimer(s).(expirationTime := ExpirationTime, timerRunning := true)
  }

  /** `startCooldown`: any running interval is replaced by a fresh 30-second cooldown. */
  function StartCooldown(s: SignIn): (r: SignIn)
    ensures r.cooldownTime == CooldownTime && r.cooldownRunning
    ensures r == s.(cooldownTime := CooldownTime, cooldownRunning := true)
  {
    StopCooldown(s).(cooldownTime := CooldownTime, cooldownRunning := true)
  }

  /** `decrementTimer`: one second off while time remains; at zero the interval stops. */
  function DecrementTimer(s: SignIn): (r: SignIn)
    ensures s.expirationTime > 0 ==> r == s.(expirationTime := s.expirationTime - 1)
    ensures s.expirationTime == 0 ==> r == s.(timerRunning := false)
  {
    if s.expirationTime > 0 then s.(expirationTime := s.expirationTime - 1) else StopTimer(s)
  }

  /** `decrementCooldown`: one second off while time remains; at zero the interval stops. */
  function DecrementCooldown(s: SignIn): (r: SignIn)
    ensures s.cooldownTime > 0 ==> r == s.(cooldownTime := s.cooldownTime - 1)
    ensures s.cooldownTime == 0 ==> r == s.(cooldownRunning := false)
  {
    if s.cooldownTime > 0 then s.(cooldownTime := s.cooldownTime - 1) else StopCooldown(s)
  }

  /** One firing of the expiry interval: it only fires while it runs. */
  function TimerTick(s: SignIn): SignIn
  {
    if s.timerRunning then DecrementTimer(s) else s
  }

  /** One firing of the cooldown interval. */
  function CooldownTick(s: SignIn): SignIn
  {
    if s.cooldownRunning then DecrementCooldown(s) else s
  }

  /** `n` firings of the expiry interval. */
  function TimerTicks(s: SignIn, n: nat): SignIn
    decreases n
  {
    if n == 0 then s else TimerTicks(TimerTick(s), n - 1)
  }

  /** A running countdown at `t` seconds shows `t - n` after `n <= t` ticks, still running; the tick after
      it reaches zero stops it, and nothing but the countdown changes. */
  lemma {:induction false} TimerCountsDown(s: SignIn, n: nat)
    requires s.timerRunning
    ensures var r := TimerTicks(s, n);
      && (n <= s.expirationTime ==> r == s.(expirationTime := s.expirationTime - n))
      && (n > s.expirationTime ==> r == s.(expirationTime := 0, timerRunning := false))
    decreases n
  {
    if n > 0 {
      var next := TimerTick(s);
      if s.expirationTime > 0 {
        TimerCountsDown(next, n - 1);
      } else {
        assert next == s.(timerRunning := false);
        StoppedTimerStays(next, n - 1);
      }
    }
  }

  /** A stopped countdown ignores ticks. */
  lemma {:induction false} StoppedTimerStays(s: SignIn, n: nat)
    requires !s.timerRunning
    ensures TimerTicks(s, n) == s
    decreases n
  {
    if n > 0 {
      StoppedTimerStays(s, n - 1);
    }
  }

  /** From a fresh start the code expires after exactly 300 ticks, and stays expired. */
  lemma CodeExpiresAfterFiveMinutes(s: SignIn)
    ensures TimerExpired(TimerTicks(StartTimer(s), ExpirationTime))
    ensures !TimerExpired(TimerTicks(StartTimer(s), ExpirationTime - 1))
    ensures ErrorMessage(TimerTicks(StartTimer(s), ExpirationTime + 1)) == Some(ExpiredText)
  {
    TimerCountsDown(StartTimer(s), ExpirationTime);
    TimerCountsDown(StartTimer(s), ExpirationTime - 1);
    TimerCountsDown(StartTimer(s), ExpirationTime + 1);
  }

  // ---------------------------------------------------------------------------
  // Requests
  // ---------------------------------------------------------------------------

  /** `requestVerification` up to its `await`: refused unless a request is allowed; otherwise the code,
      the error and the verified flag are cleared and the store is busy. */
  function BeginRequest(s: SignIn): (r: SignIn)
    ensures !CanRequestVerification(s) ==> r == s
    ensures CanRequestVerification(s) ==>
      r == s.(loading := true, verificationCode := "", verificationError := None, verified := false)
    ensures CanRequestVerification(s) ==> !CanRequestVerification(r) && !CanVerifyCode(r)
  {
    if !CanRequestVerification(s) then s
    else s.(loading := true, verificationCode := "", verificationError := None, verified := false)
  }

  /** `requestVerification` after its `await`: on success the code counts as requested and both intervals
      restart; on failure the request error is stored. Either way the store is no longer busy. */
  function CompleteRequest(s: SignIn, succeeded: bool): (r: SignIn)
    ensures !r.loading
    ensures succeeded ==> r.codeRequested && TimerActive(r) == !r.verified && CooldownActive(r)
    ensures succeeded ==> r == s.(codeRequested := true, expirationTime := ExpirationTime, timerRunning := true,
      cooldownTime := CooldownTime, cooldownRunning := true, loading := false)
    ensures succeeded ==> !CanRequestVerification(r)
    ensures !succeeded ==> r == s.(verificationError := Some(RequestFailed), loading := false)
  {
    var r := if succeeded then StartCooldown(StartTimer(s.(codeRequested := true))) else s.(verificationError := Some(RequestFailed));
    r.(loading := false)
  }

  /** The outcome of confirming a code: a user is returned, no user is returned, or the call throws. */
  datatype ConfirmOutcome = SignedIn | NoUser | Rejected

  /** `verifyCode` up to its `await`: refused unless a code may be verified; otherwise the store is busy. */
  function BeginVerify(s: SignIn): (result: (SignIn, bool))
    ensures result.1 <==> CanVerifyCode(s)
    ensures !result.1 ==> result.0 == s
    ensures result.1 ==> result.0 == s.(loading := true) && !CanVerifyCode(result.0) && !CanRequestVerification(result.0)
  {
    if CanVerifyCode(s) then (s.(loading := true), true) else (s, false)
  }

  /** `verifyCode` after its `await`, with the value it returns: confirmation stops the countdown and marks
      the store verified; a rejection stores the error. */
  function CompleteVerify(s: SignIn, outcome: ConfirmOutcome): (result: (SignIn, bool))
    ensures !result.0.loading
    ensures result.1 <==> outcome != Rejected
    ensures result.0.verified <==> outcome != Rejected
    ensures outcome != Rejected ==> !result.0.timerRunning && !TimerActive(result.0)
    ensures outcome == SignedIn ==> result.0.verificationError.None?
    ensures outcome == NoUser ==> result.0.verificationError == s.verificationError
    ensures outcome == SignedIn ==> result.0 == s.(timerRunning := false, verificationError := None, verified := true, loading := false)
    ensures outcome == NoUser ==> result.0 == s.(timerRunning := false, verified := true, loading := false)
    ensures outcome == Rejected ==> result.0 == s.(verificationError := Some(CodeRejected), verified := false, loading := false)
  {
    match outcome
    case SignedIn => (StopTimer(s).(verificationError := None, verified := true, loading := false), true)
    case NoUser => (StopTimer(s).(verified := true, loading := false), true)
    case Rejected => (s.(verificationError := Some(CodeRejected), verified := false, loading := false), false)
  }

  /** A confirmed code is valid until the countdown's last value is lost, and cannot be submitted again. */
  lemma VerifiedIsValid(s: SignIn, outcome: ConfirmOutcome)
    requires CanVerifyCode(s) && outcome != Rejected
    ensures var r := CompleteVerify(BeginVerify(s).0, outcome).0;
      Valid(r) && !CanVerifyCode(r) && ErrorMessage(r) == (if outcome == SignedIn then None else ErrorMessage(s))
  {
  }

  // ---------------------------------------------------------------------------
  // Life cycle
  // ---------------------------------------------------------------------------

  function Cleanup(s: SignIn): (r: SignIn)
    ensures !r.timerRunning && !r.cooldownRunning
    ensures r == s.(timerRunning := false, cooldownRunning := false)
  {
    StopCooldown(StopTimer(s))
  }

  /** `init`: restarts the countdown for an outstanding code and the cooldown if time remains on it. */
  function Init(s: SignIn): (r: SignIn)
    ensures r.timerRunning <==> s.codeRequested && !s.verified && s.expirationTime > 0
    ensures r.cooldownRunning <==> s.cooldownTime > 0
    ensures r.timerRunning ==> r.expirationTime == ExpirationTime
    ensures !r.timerRunning ==> r.expirationTime == s.expirationTime
    ensures r.cooldownRunning ==> r.cooldownTime == CooldownTime
    ensures !r.cooldownRunning ==> r.cooldownTime == s.cooldownTime
    ensures r.phoneNumber == s.phoneNumber && r.verificationCode == s.verificationCode && r.verified == s.verified
    ensures r == s.(expirationTime := r.expirationTime, timerRunning := r.timerRunning, cooldownTime := r.cooldownTime, cooldownRunning := r.cooldownRunning)
  {
    var c := Cleanup(s);
    var t := if c.codeRequested && !c.verified && c.expirationTime > 0 then StartTimer(c) else c;
    if t.cooldownTime > 0 && !t.cooldownRunning then StartCooldown(t) else t
  }

  /** `reset`: every field back to its initial value, both intervals stopped. */
  function Reset(s: SignIn): (r: SignIn)
    ensures r == Initial
    ensures !r.timerRunning && !r.cooldownRunning && !r.codeRequested
  {
    Cleanup(s.(phoneNumber := "", verificationCode := "", codeRequested := false, expirationTime := ExpirationTime,
               cooldownTime := 0, verificationError := None, loading := false, verified := false))
  }

  // ---------------------------------------------------------------------------
  // Invariant
  // ---------------------------------------------------------------------------

  /** What every reachable store satisfies: a digit-only phone number, a short digit-only code, and
      counters within their start values. */
  predicate Inv(s: SignIn)
  {
    && AllDigits(s.phoneNumber)
    && AllDigits(s.verificationCode) && |s.verificationCode| <= VerificationCodeLength
    && s.expirationTime <= ExpirationTime
    && s.cooldownTime <= CooldownTime
  }

  /** The operations a user or an interval can apply to the store. */
  datatype Event =
    | EnterPhoneNumber(text: string)
    | EnterCode(text: string)
    | TimerFired
    | CooldownFired
    | StartRequest
    | FinishRequest(succeeded: bool)
    | StartVerify
    | FinishVerify(outcome: ConfirmOutcome)
    | Mount
    | Unmount
    | ResetStore

  function Step(s: SignIn, e: Event): SignIn
  {
    match e
    case EnterPhoneNumber(text) => UpdatePhoneNumber(s, text)
    case EnterCode(text) => UpdateVerificationCode(s, text)
    case TimerFired => TimerTick(s)
    case CooldownFired => CooldownTick(s)
    case StartRequest => BeginRequest(s)
    case FinishRequest(ok) => CompleteRequest(s, ok)
    case StartVerify => BeginVerify(s).0
    case FinishVerify(outcome) => CompleteVerify(s, outcome).0
    case Mount => Init(s)
    case Unmount => Cleanup(s)
    case ResetStore => Reset(s)
  }

  /** The invariant holds initially and every event preserves it. */
  lemma StepPreservesInv(s: SignIn, e: Event)
    requires Inv(s)
    ensures Inv(Initial)
    ensures Inv(Step(s, e))
  {
    assert AllDigits("");
    match e
    case EnterPhoneNumber(text) => InputPreservesInv(s, text);
    case EnterCode(text) => InputPreservesInv(s, text);
    case TimerFired => IntervalsPreserveInv(s);
    case CooldownFired => IntervalsPreserveInv(s);
    case StartRequest => RequestPreservesInv(s, true);
    case FinishRequest(ok) => RequestPreservesInv(s, ok);
    case StartVerify => VerifyPreservesInv(s, SignedIn);
    case FinishVerify(outcome) => VerifyPreservesInv(s, outcome);
    case Mount => IntervalsPreserveInv(s);
    case Unmount => IntervalsPreserveInv(s);
    case ResetStore => IntervalsPreserveInv(s);
  }

  /** The two input handlers keep the invariant. */
  lemma InputPreservesInv(s: SignIn, text: string)
    requires Inv(s)
    ensures Inv(UpdatePhoneNumber(s, text)) && Inv(UpdateVerificationCode(s, text))
  {
  }

  /** The interval ticks, mounting, unmounting and `reset` keep the invariant. */
  lemma IntervalsPreserveInv(s: SignIn)
    requires Inv(s)
    ensures Inv(TimerTick(s)) && Inv(CooldownTick(s)) && Inv(Init(s)) && Inv(Cleanup(s)) && Inv(Reset(s))
  {
    assert AllDigits("");
  }

  /** Both halves of the code request keep the invariant. */
  lemma RequestPreservesInv(s: SignIn, ok: bool)
    requires Inv(s)
    ensures Inv(BeginRequest(s)) && Inv(CompleteRequest(s, ok))
  {
    assert AllDigits("");
  }

  /** Both halves of the code confirmation keep the invariant. */
  lemma VerifyPreservesInv(s: SignIn, outcome: ConfirmOutcome)
    requires Inv(s)
    ensures Inv(BeginVerify(s).0) && Inv(CompleteVerify(s, outcome).0)
  {
  }

  /** On every reachable store the phone check as written and the intended one agree. */
  lemma ReachablePhoneCheckAgrees(s: SignIn)
    requires Inv(s)
    ensures ValidPhoneNumber(s.phoneNumber) <==> ValidPhoneNumberAsWritten(s.phoneNumber)
  {
    PhonePatternsAgreeOnDigits(s.phoneNumber);
  }
}

=== FILE: text.dfy ===
/**
 String operations the models and view models use: the `/[^0-9]/g` digit
 filter, decimal printing (`String(n)`, `toString()`) and parsing
 (`parseInt(s, 10)`), `padStart`, `includes`, `indexOf`, the first-occurrence
 `replace` and `join`.
 */
module Text {
  import opened Nullish

  predicate IsDigit(c: char)
  {
    '0' <= c <= '9'
  }

  predicate AllDigits(s: string)
  {
    forall i :: 0 <= i < |s| ==> IsDigit(s[i])
  }

  /** `s.replace(/[^0-9]/g, '')`: the digit characters of `s`, in order. */
  function KeepDigits(s: string): (r: string)
    ensures AllDigits(r)
    ensures |r| <= |s|
  {
    if s == [] then []
    else (if IsDigit(s[0]) then [s[0]] else []) + KeepDigits(s[1..])
  }

  /** Filtering distributes over concatenation, so the kept digits appear in their original order. */
  lemma {:induction false} KeepDigitsAppend(a: string, b: string)
    ensures KeepDigits(a + b) == KeepDigits(a) + KeepDigits(b)
    decreases |a|
  {
    if a == [] {
      assert a + b == b;
    } else {
      assert (a + b)[0] == a[0];
      assert (a + b)[1..] == a[1..] + b;
      KeepDigitsAppend(a[1..], b);
    }
  }

  /** A digit-only string passes the filter unchanged. */
  lemma {:induction false} KeepDigitsOfDigits(s: string)
    requires AllDigits(s)
    ensures KeepDigits(s) == s
    decreases |s|
  {
    if s != [] {
      KeepDigitsOfDigits(s[1..]);
    }
  }

  /** The filter keeps every digit (each as often as it occurs) and nothing else. */
  lemma {:induction false} KeepDigitsContents(s: string)
    ensures forall c :: IsDigit(c) ==> multiset(KeepDigits(s))[c] == multiset(s)[c]
    ensures forall c :: !IsDigit(c) ==> c !in KeepDigits(s)
    decreases |s|
  {
    if s != [] {
      KeepDigitsContents(s[1..]);
      assert s == [s[0]] + s[1..];
    }
  }

  /** Running the filter twice is running it once. */
  lemma KeepDigitsIdempotent(s: string)
    ensures KeepDigits(KeepDigits(s)) == KeepDigits(s)
  {
    KeepDigitsOfDigits(KeepDigits(s));
  }

  function DigitChar(d: nat): (c: char)
    requires d < 10
    ensures IsDigit(c)
  {
    "0123456789"[d]
  }

  function DigitValue(c: char): (d: nat)
    requires IsDigit(c)
    ensures d < 10 && DigitChar(d) == c
  {
    (c as int - '0' as int)
  }

  /** `String(n)` for a non-negative integer: its decimal digits, no leading zero. */
  function NatToString(n: nat): (r: string)
    ensures |r| >= 1 && AllDigits(r)
    ensures |r| > 1 ==> r[0] != '0'
    ensures n < 10 <==> |r| == 1
    decreases n
  {
    if n < 10 then [DigitChar(n)] else NatToString(n / 10) + [DigitChar(n % 10)]
  }

  /** The value of a string of decimal digits; `parseInt(s, 10)` on such a string. */
  function DecimalValue(s: string): nat
    requires AllDigits(s)
    decreases |s|
  {
    if s == [] then 0 else 10 * DecimalValue(s[..|s| - 1]) + DigitValue(s[|s| - 1])
  }

  /** Parsing what `String(n)` prints gives `n` back. */
  lemma {:induction false} DecimalValueOfNatToString(n: nat)
    ensures DecimalValue(NatToString(n)) == n
    decreases n
  {
    var r := NatToString(n);
    if n >= 10 {
      DecimalValueOfNatToString(n / 10);
      assert r[..|r| - 1] == NatToString(n / 10);
    }
  }

  /** `s.padStart(n, c)` for a one-character filler. */
  function PadStart(s: string, n: nat, c: char): (r: string)
    ensures |r| == if |s| >= n then |s| else n
    ensures r[|r| - |s|..] == s
    ensures forall i :: 0 <= i < |r| - |s| ==> r[i] == c
  {
    if |s| >= n then s else seq(n - |s|, _ => c) + s
  }

  /** `s` holds `pat` starting at index `i`. */
  predicate OccursAt(s: string, pat: string, i: nat)
  {
    i + |pat| <= |s| && s[i..i + |pat|] == pat
  }

  lemma OccursAtTail(s: string, pat: string, i: nat)
    requires |s| > 0 && i >= 1
    ensures OccursAt(s, pat, i) <==> OccursAt(s[1..], pat, i - 1)
  {
    if i + |pat| <= |s| {
      assert s[1..][i - 1..i - 1 + |pat|] == s[i..i + |pat|];
    }
  }

  /** `s.indexOf(pat)`: the first index at which `pat` occurs, or none. */
  function IndexOf(s: string, pat: string): (r: Option<nat>)
    ensures r.Some? ==> OccursAt(s, pat, r.value)
    ensures r.Some? ==> forall j :: 0 <= j < r.value ==> !OccursAt(s, pat, j)
    ensures r.None? ==> forall j :: 0 <= j ==> !OccursAt(s, pat, j)
    decreases |s|
  {
    if |pat| > |s| then None
    else if s[..|pat|] == pat then Some(0)
    else
      var rest := IndexOf(s[1..], pat);
      assert !OccursAt(s, pat, 0);
      assert forall j :: 1 <= j ==> (OccursAt(s, pat, j) <==> OccursAt(s[1..], pat, j - 1)) by {
        forall j | 1 <= j { OccursAtTail(s, pat, j); }
      }
      match rest
      case None => None
      case Some(j) => Some(j + 1)
  }

  /** `s.includes(pat)`. */
  function Contains(s: string, pat: string): (b: bool)
    ensures b <==> exists i :: 0 <= i && OccursAt(s, pat, i)
  {
    IndexOf(s, pat).Some?
  }

  /** A pattern one of whose characters never occurs in `s` does not occur in `s`. */
  lemma AbsentCharNotContained(s: string, pat: string, c: char)
    requires c in pat && c !in s
    ensures !Contains(s, pat)
  {
  }

  /** `s.replace(pat, rep)` with a string pattern: only the first occurrence is replaced. */
  function ReplaceFirst(s: string, pat: string, rep: string): (r: string)
    ensures !Contains(s, pat) ==> r == s
    ensures Contains(s, pat) ==>
      var i := IndexOf(s, pat).value;
      r == s[..i] + rep + s[i + |pat|..] && forall j :: 0 <= j < i ==> !OccursAt(s, pat, j)
  {
    match IndexOf(s, pat)
    case None => s
    case Some(i) => s[..i] + rep + s[i + |pat|..]
  }

  /** `parts.join(sep)`. */
  function Join(parts: seq<string>, sep: string): (r: string)
    ensures parts == [] ==> r == []
    ensures |parts| == 1 ==> r == parts[0]
    decreases |parts|
  {
    if parts == [] then []
    else if |parts| == 1 then parts[0]
    else parts[0] + sep + Join(parts[1..], sep)
  }

  /** A join of non-empty pieces is non-empty exactly when there is a piece. */
  lemma JoinNonEmpty(parts: seq<string>, sep: string)
    requires forall i :: 0 <= i < |parts| ==> parts[i] != []
    ensures Join(parts, sep) == [] <==> parts == []
  {
    if |parts| > 1 {
      assert parts[0] != [];
    }
  }
}

=== FILE: user_model.dfy ===
/**
 The user record: a constructor that defaults every missing field, the
 role and recipient-type predicates, and `copyWith`.
 */
module UserModel {
  import opened Nullish

  datatype Role = User | Admin | Repairer | Guardian

  datatype RecipientType = General | Disabled | LowIncome

  /** The object literal handed to the constructor or to `copyWith`; every key is optional. Dates are timestamps. */
  datatype UserInput = UserInput(
    id: Prop<string>,
    firebaseUid: Prop<string>,
    phoneNumber: Prop<string>,
    role: Prop<Role>,
    guardianIds: Prop<seq<string>>,
    name: Prop<string>,
    recipientType: Prop<RecipientType>,
    createdAt: Prop<int>,
    updatedAt: Prop<int>)

  datatype UserRecord = UserRecord(
    id: string,
    firebaseUid: string,
    phoneNumber: string,
    role: Role,
    guardianIds: seq<string>,
    name: string,
    recipientType: RecipientType,
    createdAt: int,
    updatedAt: int)

  const NoChanges: UserInput := UserInput(Absent, Absent, Absent, Absent, Absent, Absent, Absent, Absent, Absent)

  /** The constructor; `now` stands for the clock read by `new Date()`. */
  function FromInput(m: UserInput, now: int): (u: UserRecord)
    ensures u.id == (if m.id.Given? then m.id.value else "")
    ensures u.firebaseUid == (if m.firebaseUid.Given? then m.firebaseUid.value else "")
    ensures u.phoneNumber == (if m.phoneNumber.Given? then m.phoneNumber.value else "")
    ensures u.role == (if m.role.Given? then m.role.value else User)
    ensures u.guardianIds == (if m.guardianIds.Given? then m.guardianIds.value else [])
    ensures u.name == (if m.name.Given? then m.name.value else "")
    ensures u.recipientType == (if m.recipientType.Given? then m.recipientType.value else General)
    ensures u.createdAt == (if m.createdAt.Given? then m.createdAt.value else now)
    ensures u.updatedAt == (if m.updatedAt.Given? then m.updatedAt.value else now)
  {
    UserRecord(
      Coalesce(m.id, ""),
      Coalesce(m.firebaseUid, ""),
      Coalesce(m.phoneNumber, ""),
      Coalesce(m.role, User),
      Coalesce(m.guardianIds, []),
      Coalesce(m.name, ""),
      Coalesce(m.recipientType, General),
      Coalesce(m.createdAt, now),
      Coalesce(m.updatedAt, now))
  }

  /** Every field of a user, written out as constructor input. */
  function ToInput(u: UserRecord): UserInput
  {
    UserInput(
      Given(u.id), Given(u.firebaseUid), Given(u.phoneNumber), Given(u.role), Given(u.guardianIds),
      Given(u.name), Given(u.recipientType), Given(u.createdAt), Given(u.updatedAt))
  }

  /** Supplying every field reproduces the user whatever the clock says. */
  lemma FromInputRoundTrip(u: UserRecord, now: int)
    ensures FromInput(ToInput(u), now) == u
  {
  }

  /** An empty literal gives a general user with no guardians, stamped with the clock. */
  lemma FromEmptyInput(now: int)
    ensures FromInput(NoChanges, now) == UserRecord("", "", "", User, [], "", General, now, now)
  {
  }

  predicate IsAdmin(u: UserRecord)
  {
    u.role == Admin
  }

  predicate IsRepairer(u: UserRecord)
  {
    u.role == Repairer
  }

  predicate IsGuardian(u: UserRecord)
  {
    u.role == Guardian
  }

  predicate HasGuardians(u: UserRecord)
  {
    |u.guardianIds| > 0
  }

  predicate IsDisabled(u: UserRecord)
  {
    u.recipientType == Disabled
  }

  predicate IsLowIncome(u: UserRecord)
  {
    u.recipientType == LowIncome
  }

  /** At most one role predicate holds, and none holds exactly for a plain user; the two recipient
      predicates exclude each other and both fail exactly for a general recipient. */
  lemma PredicatesExclusive(u: UserRecord)
    ensures (if IsAdmin(u) then 1 else 0) + (if IsRepairer(u) then 1 else 0) + (if IsGuardian(u) then 1 else 0) <= 1
    ensures !IsAdmin(u) && !IsRepairer(u) && !IsGuardian(u) <==> u.role == User
    ensures !(IsDisabled(u) && IsLowIncome(u))
    ensures !IsDisabled(u) && !IsLowIncome(u) <==> u.recipientType == General
    ensures HasGuardians(u) <==> u.guardianIds != []
  {
  }

  /** `{...this, ...changes, createdAt: …, updatedAt: …}`: each key `changes` leaves out keeps this user's
      value; the dates are replaced only by a given date. */
  function SpreadInput(u: UserRecord, changes: UserInput): UserInput
  {
    UserInput(
      Spread(u.id, changes.id),
      Spread(u.firebaseUid, changes.firebaseUid),
      Spread(u.phoneNumber, changes.phoneNumber),
      Spread(u.role, changes.role),
      Spread(u.guardianIds, changes.guardianIds),
      Spread(u.name, changes.name),
      Spread(u.recipientType, changes.recipientType),
      Given(Override(u.createdAt, changes.createdAt)),
      Given(Override(u.updatedAt, changes.updatedAt)))
  }

  /** `copyWith`: the constructor applied to the spread; both dates are given, so the clock is never read. */
  function CopyWith(u: UserRecord, changes: UserInput): (r: UserRecord)
    ensures r.id == Merge(u.id, changes.id, "")
    ensures r.firebaseUid == Merge(u.firebaseUid, changes.firebaseUid, "")
    ensures r.phoneNumber == Merge(u.phoneNumber, changes.phoneNumber, "")
    ensures r.role == Merge(u.role, changes.role, User)
    ensures r.guardianIds == Merge(u.guardianIds, changes.guardianIds, [])
    ensures r.name == Merge(u.name, changes.name, "")
    ensures r.recipientType == Merge(u.recipientType, changes.recipientType, General)
    ensures r.createdAt == Override(u.createdAt, changes.createdAt)
    ensures r.updatedAt == Override(u.updatedAt, changes.updatedAt)
  {
    FromInput(SpreadInput(u, changes), u.createdAt)
  }

  /** `copyWith({})` preserves every field. */
  lemma CopyWithNoChanges(u: UserRecord)
    ensures CopyWith(u, NoChanges) == u
  {
  }

  /** Giving every field replaces the whole user with the given one. */
  lemma CopyWithEverything(u: UserRecord, v: UserRecord)
    ensures CopyWith(u, ToInput(v)) == v
  {
  }

  /** Applying the same changes twice is applying them once. */
  lemma CopyWithIdempotent(u: UserRecord, changes: UserInput)
    ensures CopyWith(CopyWith(u, changes), changes) == CopyWith(u, changes)
  {
  }

  /** A key present with the value `undefined` resets that field to its default, while an undefined date keeps the old date. */
  lemma CopyWithUndefinedResets(u: UserRecord)
    ensures var r := CopyWith(u, NoChanges.(role := Undefined, guardianIds := Undefined, createdAt := Undefined));
      && r.role == User && r.guardianIds == [] && !HasGuardians(r) && r.createdAt == u.createdAt
      && r.name == u.name && r.recipientType == u.recipientType
  {
  }
}

=== FILE: vehicle_test.dfy ===
/**
 The twelve-question vehicle questionnaire: every question starts
 unanswered, an answer is recorded against a question id, and the
 questionnaire is complete once every question has an answer.
 */
module VehicleTest {
  import opened Nullish

  datatype TestItem = TestItem(id: int, question: string, answer: Option<bool>)

  const Questions: seq<string> := [
    "튜브의 펑크가 자주 일어난다.",
    "타이어의 마모가 심하여 자주 교체한다.",
    "완충 후에도 배터리의 소모가 빠르다.",
    "계기판 및 조이스틱 컨트롤러의 배터리 게이지가 깜빡깜빡 거린다.",
    "충전이 되지 않는다.",
    "구동 시 소음이 심하다.",
    "차체에서 소리가 난다.",
    "속도가 너무 느리거나 너무 빠르다.",
    "배터리의 교체시기가 빠르다.",
    "하루종일 충전을 해도 완충이 되지 않는다.",
    "완충 후에도 속도가 많이 느리다.",
    "타이어와 튜브를 자체적으로 교체하려 한다."
  ]

  /** `initializeTestItems`: question `k` gets id `k + 1` and no answer. */
  function InitialItems(): (items: seq<TestItem>)
    ensures |items| == 12
    ensures forall i :: 0 <= i < |items| ==> items[i].id == i + 1 && items[i].answer.None?
    ensures forall i :: 0 <= i < |items| ==> items[i].question == Questions[i]
  {
    seq(|Questions|, i requires 0 <= i < |Questions| => TestItem(i + 1, Questions[i], None))
  }

  /** `allItemsAnswered`. */
  predicate AllItemsAnswered(items: seq<TestItem>)
  {
    forall i :: 0 <= i < |items| ==> items[i].answer.Some?
  }

  /** A fresh questionnaire is not complete. */
  lemma InitiallyUnanswered()
    ensures !AllItemsAnswered(InitialItems())
  {
    assert InitialItems()[0].answer.None?;
  }

  /** `find`: the index of the first item with the id, if any. */
  function FindIndex(items: seq<TestItem>, id: int): (k: Option<nat>)
    ensures k.Some? ==> k.value < |items| && items[k.value].id == id
    ensures k.Some? ==> forall j :: 0 <= j < k.value ==> items[j].id != id
    ensures k.None? ==> forall j :: 0 <= j < |items| ==> items[j].id != id
    decreases |items|
  {
    if items == [] then None
    else if items[0].id == id then Some(0)
    else match FindIndex(items[1..], id)
      case None => None
      case Some(k) => Some(k + 1)
  }

  /** `setAnswer`: records the answer on the first item with the id; an unknown id changes nothing. */
  function SetAnswer(items: seq<TestItem>, id: int, answer: bool): (r: seq<TestItem>)
    ensures |r| == |items|
    ensures (forall j :: 0 <= j < |items| ==> items[j].id != id) ==> r == items
    ensures forall j :: 0 <= j < |items| ==>
      r[j] == (if FindIndex(items, id) == Some(j) then items[j].(answer := Some(answer)) else items[j])
  {
    match FindIndex(items, id)
    case None => items
    case Some(k) => items[k := items[k].(answer := Some(answer))]
  }

  /** Recording an answer never clears one, so a complete questionnaire stays complete. */
  lemma SetAnswerKeepsAnswers(items: seq<TestItem>, id: int, answer: bool)
    ensures forall j :: 0 <= j < |items| && items[j].answer.Some? ==> SetAnswer(items, id, answer)[j].answer.Some?
    ensures AllItemsAnswered(items) ==> AllItemsAnswered(SetAnswer(items, id, answer))
  {
  }

  /** On the fresh questionnaire, answering id `k` answers exactly question `k`. */
  lemma SetAnswerOnInitial(id: int, answer: bool)
    requires 1 <= id <= 12
    ensures var r := SetAnswer(InitialItems(), id, answer);
      && r[id - 1].answer == Some(answer)
      && forall j :: 0 <= j < 12 && j != id - 1 ==> r[j].answer.None?
  {
    var items := InitialItems();
    assert items[id - 1].id == id;
    assert forall j :: 0 <= j < id - 1 ==> items[j].id != id;
  }

  /** Answering the one open question, by its id, completes the questionnaire when ids are distinct. */
  lemma AnsweringTheLastQuestionCompletes(items: seq<TestItem>, k: nat, answer: bool)
    requires k < |items|
    requires forall i, j :: 0 <= i < j < |items| ==> items[i].id != items[j].id
    requires forall j :: 0 <= j < |items| && j != k ==> items[j].answer.Some?
    ensures AllItemsAnswered(SetAnswer(items, items[k].id, answer))
  {
    assert FindIndex(items, items[k].id) == Some(k);
  }
}

=== FILE: welfare_report_model.dfy ===
/**
 The stored welfare report: a constructor that fills every missing field
 with a default, and the two trend strings shown on the report page.
 */
module WelfareReportModel {
  import opened Nullish

  /** A recommended service as stored; the backend may attach a `category` the declared type does not name. */
  datatype ServiceInput = ServiceInput(name: string, reason: string, link: Option<string>, category: Option<string>)

  datatype MetadataInput = MetadataInput(
    weeklyKm: Prop<real>,
    trend: Prop<string>,
    recentRepairs: Prop<nat>,
    recentSelfChecks: Prop<nat>,
    supportedDistrict: Prop<string>)

  /** The object literal handed to the constructor; every key is optional. */
  datatype WelfareReportInput = WelfareReportInput(
    userId: Prop<string>,
    summary: Prop<string>,
    risk: Prop<string>,
    services: Prop<seq<ServiceInput>>,
    metadata: Prop<MetadataInput>,
    isFallback: Prop<bool>,
    createdAt: Prop<int>)

  datatype Metadata = Metadata(
    weeklyKm: real,
    trend: string,
    recentRepairs: nat,
    recentSelfChecks: nat,
    supportedDistrict: string)

  /** A constructed report; `createdAt` is a timestamp. */
  datatype WelfareReport = WelfareReport(
    userId: string,
    summary: string,
    risk: string,
    services: seq<ServiceInput>,
    metadata: Metadata,
    isFallback: bool,
    createdAt: int)

  const DefaultDistrict: string := "성동구"

  const DefaultMetadata: Metadata := Metadata(0.0, "stable", 0, 0, DefaultDistrict)

  /** `model.metadata?.<field>` reads `undefined` from every field of a missing metadata object. */
  function MetadataOrUndefined(metadata: Prop<MetadataInput>): MetadataInput
  {
    if metadata.Given? then metadata.value else MetadataInput(Undefined, Undefined, Undefined, Undefined, Undefined)
  }

  /** The constructor; `now` stands for the clock read by `new Date()`. */
  function FromInput(m: WelfareReportInput, now: int): (r: WelfareReport)
    ensures !m.metadata.Given? ==> r.metadata == DefaultMetadata
    ensures m.metadata.Given? ==>
      var md := m.metadata.value;
      && r.metadata.weeklyKm == (if md.weeklyKm.Given? then md.weeklyKm.value else 0.0)
      && r.metadata.trend == (if md.trend.Given? then md.trend.value else "stable")
      && r.metadata.recentRepairs == (if md.recentRepairs.Given? then md.recentRepairs.value else 0)
      && r.metadata.recentSelfChecks == (if md.recentSelfChecks.Given? then md.recentSelfChecks.value else 0)
      && r.metadata.supportedDistrict == (if md.supportedDistrict.Given? then md.supportedDistrict.value else DefaultDistrict)
    ensures r.userId == (if m.userId.Given? then m.userId.value else "")
    ensures r.summary == (if m.summary.Given? then m.summary.value else "")
    ensures r.risk == (if m.risk.Given? then m.risk.value else "")
    ensures r.services == (if m.services.Given? then m.services.value else [])
    ensures r.isFallback == (m.isFallback.Given? && m.isFallback.value)
    ensures r.createdAt == (if m.createdAt.Given? then m.createdAt.value else now)
  {
    var md := MetadataOrUndefined(m.metadata);
    WelfareReport(
      Coalesce(m.userId, ""),
      Coalesce(m.summary, ""),
      Coalesce(m.risk, ""),
      Coalesce(m.services, []),
      Metadata(
        Coalesce(md.weeklyKm, 0.0),
        Coalesce(md.trend, "stable"),
        Coalesce(md.recentRepairs, 0),
        Coalesce(md.recentSelfChecks, 0),
        Coalesce(md.supportedDistrict, DefaultDistrict)),
      Coalesce(m.isFallback, false),
      Coalesce(m.createdAt, now))
  }

  /** Every field of a report, written out as constructor input. */
  function ToInput(r: WelfareReport): WelfareReportInput
  {
    WelfareReportInput(
      Given(r.userId), Given(r.summary), Given(r.risk), Given(r.services),
      Given(MetadataInput(
        Given(r.metadata.weeklyKm), Given(r.metadata.trend), Given(r.metadata.recentRepairs),
        Given(r.metadata.recentSelfChecks), Given(r.metadata.supportedDistrict))),
      Given(r.isFallback), Given(r.createdAt))
  }

  /** Supplying every field reproduces the report whatever the clock says. */
  lemma FromInputRoundTrip(r: WelfareReport, now: int)
    ensures FromInput(ToInput(r), now) == r
  {
  }

  /** An empty literal gives the all-default report stamped with the clock. */
  lemma FromEmptyInput(now: int)
    ensures FromInput(WelfareReportInput(Absent, Absent, Absent, Absent, Absent, Absent, Absent), now)
         == WelfareReport("", "", "", [], DefaultMetadata, false, now)
  {
  }

  // ---------------------------------------------------------------------------
  // Trend strings
  // ---------------------------------------------------------------------------

  /** A `Record<string, string>` literal keyed by the three trend names, and the text shown for any other key. */
  datatype TrendTable = TrendTable(increase: string, decrease: string, stable: string, fallback: string)

  const DisplayTable: TrendTable :=
    TrendTable("증가 추세 📈", "감소 추세 📉", "안정 유지 ➡️", "데이터 없음")

  const DescriptionTable: TrendTable :=
    TrendTable("최근 이동량이 증가하고 있습니다", "최근 이동량이 감소하고 있습니다",
               "최근 7일간 이동량이 일정합니다", "이동 데이터가 충분하지 않습니다")

  /** The own keys of the table literal. */
  const TrendKeys: set<string> := {"increase", "decrease", "stable"}

  /** Properties every object literal inherits from `Object.prototype`; none of them is nullish. */
  const ObjectPrototypeKeys: set<string> := {
    "constructor", "hasOwnProperty", "isPrototypeOf", "propertyIsEnumerable",
    "toLocaleString", "toString", "valueOf", "__proto__",
    "__defineGetter__", "__defineSetter__", "__lookupGetter__", "__lookupSetter__"
  }

  /** What `table[key] ?? fallback` evaluates to: a string, or an inherited member that is not one. */
  datatype Shown = Text(text: string) | InheritedMember(key: string)

  /** The source's lookup, with JavaScript's prototype chain. */
  function ShowTrendAsWritten(table: TrendTable, key: string): Shown
  {
    if key == "increase" then Text(table.increase)
    else if key == "decrease" then Text(table.decrease)
    else if key == "stable" then Text(table.stable)
    else if key in ObjectPrototypeKeys then InheritedMember(key)
    else Text(table.fallback)
  }

  /** The intended lookup: the three trend names, and the fallback text for every other string. */
  function ShowTrend(table: TrendTable, key: string): string
  {
    if key == "increase" then table.increase
    else if key == "decrease" then table.decrease
    else if key == "stable" then table.stable
    else table.fallback
  }

  /** `trendDisplayString`: four distinct texts, the fallback exactly for undeclared trends. */
  function TrendDisplayString(report: WelfareReport): (s: string)
    ensures s == DisplayTable.fallback <==> report.metadata.trend !in TrendKeys
    ensures s in {DisplayTable.increase, DisplayTable.decrease, DisplayTable.stable, DisplayTable.fallback}
    ensures s == "증가 추세 📈" <==> report.metadata.trend == "increase"
    ensures s == "감소 추세 📉" <==> report.metadata.trend == "decrease"
    ensures s == "안정 유지 ➡️" <==> report.metadata.trend == "stable"
    ensures s == "데이터 없음" <==> report.metadata.trend !in TrendKeys
  {
    ShowTrend(DisplayTable, report.metadata.trend)
  }

  /** `trendDescription`: total in the same way, with its own fallback. */
  function TrendDescription(report: WelfareReport): (s: string)
    ensures s == DescriptionTable.fallback <==> report.metadata.trend !in TrendKeys
    ensures s in {DescriptionTable.increase, DescriptionTable.decrease, DescriptionTable.stable, DescriptionTable.fallback}
    ensures s == "최근 이동량이 증가하고 있습니다" <==> report.metadata.trend == "increase"
    ensures s == "최근 이동량이 감소하고 있습니다" <==> report.metadata.trend == "decrease"
    ensures s == "최근 7일간 이동량이 일정합니다" <==> report.metadata.trend == "stable"
    ensures s == "이동 데이터가 충분하지 않습니다" <==> report.metadata.trend !in TrendKeys
  {
    ShowTrend(DescriptionTable, report.metadata.trend)
  }

  /** The trend names select distinct texts, so display and description identify the trend. */
  lemma TrendTextsDistinct(r1: WelfareReport, r2: WelfareReport)
    requires r1.metadata.trend in TrendKeys && r2.metadata.trend in TrendKeys
    ensures TrendDisplayString(r1) == TrendDisplayString(r2) ==> r1.metadata.trend == r2.metadata.trend
    ensures TrendDescription(r1) == TrendDescription(r2) ==> r1.metadata.trend == r2.metadata.trend
  {
  }

  /** As written, a trend named after an inherited member shows that member instead of the fallback. */
  lemma PrototypeKeyEscapesFallback(table: TrendTable)
    ensures ShowTrendAsWritten(table, "toString") == InheritedMember("toString")
    ensures ShowTrendAsWritten(table, "toString") != Text(ShowTrend(table, "toString"))
  {
  }

  /** For every trend string that is not an inherited member name the two lookups agree. */
  lemma ShowTrendAgrees(table: TrendTable, key: string)
    requires key !in ObjectPrototypeKeys
    ensures ShowTrendAsWritten(table, key) == Text(ShowTrend(table, key))
  {
  }
}

=== FILE: welfare_report_view.dfy ===
/**
 The logic inside the two welfare report pages: the first version's 0..100
 health score and its colour, and the second version's split of recommended
 services, usage-intensity caption and week-over-week delta badge.
 */
module WelfareReportView {
  import opened Nullish
  import opened DualAxisReportModel
  import opened WelfareReportModel
  import AnalyzeDualMetrics

  // ---------------------------------------------------------------------------
  // First version: health score
  // ---------------------------------------------------------------------------

  /** Distance points: 30..70 km is ideal. */
  function DistanceBonus(weeklyKm: real): (b: int)
    ensures b == 30 <==> 30.0 <= weeklyKm <= 70.0
    ensures b == 20 <==> weeklyKm > 70.0
    ensures b == 15 <==> 10.0 < weeklyKm < 30.0
    ensures b == 0 <==> weeklyKm <= 10.0
  {
    if 30.0 <= weeklyKm <= 70.0 then 30
    else if weeklyKm > 70.0 then 20
    else if weeklyKm > 10.0 then 15
    else 0
  }

  /** Trend points: any string other than the two named ones earns 10. */
  function TrendBonus(trend: string): (b: int)
    ensures 10 <= b <= 20
    ensures b == 20 <==> trend == "stable"
    ensures b == 15 <==> trend == "increase"
    ensures trend != "stable" && trend != "increase" ==> b == 10
  {
    if trend == "stable" then 20
    else if trend == "increase" then 15
    else 10
  }

  /** Self-check points: two per check, at most ten. */
  function SelfCheckBonus(selfChecks: nat): (b: int)
    ensures 0 <= b <= 10
    ensures selfChecks <= 5 ==> b == 2 * selfChecks
    ensures selfChecks >= 5 ==> b == 10
  {
    if 2 * selfChecks < 10 then 2 * selfChecks else 10
  }

  /** The score before clamping; every term is an integer, so `Math.round` leaves it unchanged. */
  function RawScore(md: Metadata): int
  {
    50 + DistanceBonus(md.weeklyKm) + TrendBonus(md.trend) - 5 * md.recentRepairs + SelfCheckBonus(md.recentSelfChecks)
  }

  /** `Math.max(0, Math.min(100, x))`. */
  function Clamp(x: int): (r: int)
    ensures 0 <= r <= 100
    ensures 0 <= x <= 100 ==> r == x
    ensures x < 0 ==> r == 0
    ensures x > 100 ==> r == 100
  {
    if x < 0 then 0 else if x > 100 then 100 else x
  }

  /** `calculateHealthScore`, with `None` for a page that has no report. */
  function HealthScore(report: Option<WelfareReport>): (score: int)
    ensures 0 <= score <= 100
    ensures report.None? ==> score == 0
    ensures report.Some? ==> score == Clamp(RawScore(report.value.metadata))
  {
    match report
    case None => 0
    case Some(r) => Clamp(RawScore(r.metadata))
  }

  /** More repairs never raise the score; more self-checks never lower it. */
  lemma HealthScoreMonotone(r: WelfareReport, repairs: nat, selfChecks: nat)
    requires r.metadata.recentRepairs <= repairs
    requires selfChecks >= r.metadata.recentSelfChecks
    ensures HealthScore(Some(r.(metadata := r.metadata.(recentRepairs := repairs)))) <= HealthScore(Some(r))
    ensures HealthScore(Some(r)) <= HealthScore(Some(r.(metadata := r.metadata.(recentSelfChecks := selfChecks))))
  {
  }

  /** Without repairs the score never drops below 60; ideal distance, a stable trend, five self-checks
      and at most two repairs give the full 100; a score of 0 needs at least twelve repairs. */
  lemma HealthScoreRange(r: WelfareReport)
    ensures r.metadata.recentRepairs == 0 ==> HealthScore(Some(r)) >= 60
    ensures 30.0 <= r.metadata.weeklyKm <= 70.0 && r.metadata.trend == "stable"
            && r.metadata.recentSelfChecks >= 5 && r.metadata.recentRepairs <= 2
            ==> HealthScore(Some(r)) == 100
    ensures HealthScore(Some(r)) == 0 ==> r.metadata.recentRepairs >= 12
  {
  }

  datatype ScoreColor = Good | Caution | Poor

  /** `scoreColor`. */
  function ScoreColorOf(score: int): (c: ScoreColor)
    ensures c == Good <==> score >= 80
    ensures c == Caution <==> 60 <= score < 80
    ensures c == Poor <==> score < 60
  {
    if score >= 80 then Good else if score >= 60 then Caution else Poor
  }

  function ScoreColorHex(c: ScoreColor): string
  {
    match c
    case Good => "#4CAF50"
    case Caution => "#FFC107"
    case Poor => "#FF5252"
  }

  // ---------------------------------------------------------------------------
  // Second version
  // ---------------------------------------------------------------------------

  /** The legacy metadata fields the second version hands to the classifier. */
  function LegacyOf(md: Metadata): AnalyzeDualMetrics.LegacyMetadata
  {
    AnalyzeDualMetrics.LegacyMetadata(md.weeklyKm, md.trend, md.recentRepairs, md.recentSelfChecks)
  }

  /** `dualAxisData`: nothing without a report, otherwise the legacy adapter on its metadata. */
  function DualAxisData(report: Option<WelfareReport>): (d: Option<DualAxis>)
    ensures d.Some? <==> report.Some?
  {
    match report
    case None => None
    case Some(r) => Some(AnalyzeDualMetrics.ConvertLegacyToDualAxis(LegacyOf(r.metadata)))
  }

  predicate IsWelfare(s: ServiceInput)
  {
    s.category == Some("welfare")
  }

  /** A service re-tagged by the spread copy `{ ...service, category }`. */
  function Tagged(s: ServiceInput, category: ServiceCategory): (t: ServiceRecommendation)
    ensures t.name == s.name && t.reason == s.reason && t.link == s.link && t.category == category
  {
    ServiceRecommendation(s.name, s.reason, s.link, category)
  }

  /** The welfare services of `services`, in order, tagged `device`. */
  function WelfareServices(services: seq<ServiceInput>): seq<ServiceRecommendation>
    decreases |services|
  {
    if services == [] then []
    else
      var last := services[|services| - 1];
      WelfareServices(services[..|services| - 1]) + (if IsWelfare(last) then [Tagged(last, Device)] else [])
  }

  /** Every other service of `services`, in order, tagged `mobility`. */
  function MobilityServices(services: seq<ServiceInput>): seq<ServiceRecommendation>
    decreases |services|
  {
    if services == [] then []
    else
      var last := services[|services| - 1];
      MobilityServices(services[..|services| - 1]) + (if IsWelfare(last) then [] else [Tagged(last, Mobility)])
  }

  /** `categorizedServices`: one pass over the services, pushing each onto one of two lists. */
  method CategorizeServices(report: Option<WelfareReport>) returns (forMobility: seq<ServiceRecommendation>, forWelfare: seq<ServiceRecommendation>)
    ensures report.None? ==> forMobility == [] && forWelfare == []
    ensures report.Some? ==> forMobility == MobilityServices(report.value.services)
    ensures report.Some? ==> forWelfare == WelfareServices(report.value.services)
  {
    forMobility, forWelfare := [], [];
    if report.None? {
      return;
    }
    var services := report.value.services;
    var i := 0;
    while i < |services|
      invariant 0 <= i <= |services|
      invariant forMobility == MobilityServices(services[..i])
      invariant forWelfare == WelfareServices(services[..i])
    {
      var service := services[i];
      assert services[..i + 1][..i] == services[..i];
      if service.category == Some("welfare") {
        forWelfare := forWelfare + [Tagged(service, Device)];
      } else {
        forMobility := forMobility + [Tagged(service, Mobility)];
      }
      i := i + 1;
    }
    assert services[..i] == services;
  }

  /** The two lists split the input: every service lands in exactly one, so their lengths add up. */
  lemma {:induction false} PartitionSizes(services: seq<ServiceInput>)
    ensures |MobilityServices(services)| + |WelfareServices(services)| == |services|
    ensures forall i :: 0 <= i < |WelfareServices(services)| ==> WelfareServices(services)[i].category == Device
    ensures forall i :: 0 <= i < |MobilityServices(services)| ==> MobilityServices(services)[i].category == Mobility
    decreases |services|
  {
    if services != [] {
      PartitionSizes(services[..|services| - 1]);
    }
  }

  /** Name, reason and link of a recommendation, without its category. */
  function Content(s: ServiceRecommendation): (string, string, Option<string>)
  {
    (s.name, s.reason, s.link)
  }

  function Contents(s: seq<ServiceRecommendation>): seq<(string, string, Option<string>)>
    decreases |s|
  {
    if s == [] then [] else Contents(s[..|s| - 1]) + [Content(s[|s| - 1])]
  }

  function InputContents(s: seq<ServiceInput>): seq<(string, string, Option<string>)>
    decreases |s|
  {
    if s == [] then [] else InputContents(s[..|s| - 1]) + [(s[|s| - 1].name, s[|s| - 1].reason, s[|s| - 1].link)]
  }

  lemma {:induction false} ContentsAppend(a: seq<ServiceRecommendation>, b: seq<ServiceRecommendation>)
    ensures Contents(a + b) == Contents(a) + Contents(b)
    decreases |b|
  {
    if b == [] {
      assert a + b == a;
    } else {
      assert (a + b)[..|a + b| - 1] == a + b[..|b| - 1];
      assert (a + b)[|a + b| - 1] == b[|b| - 1];
      ContentsAppend(a, b[..|b| - 1]);
    }
  }

  /** The split loses and invents nothing: the contents of the two lists together are those of the input. */
  lemma {:induction false} PartitionPreservesContent(services: seq<ServiceInput>)
    ensures multiset(Contents(MobilityServices(services))) + multiset(Contents(WelfareServices(services)))
         == multiset(InputContents(services))
    decreases |services|
  {
    if services != [] {
      var init := services[..|services| - 1];
      var last := services[|services| - 1];
      var c := (last.name, last.reason, last.link);
      PartitionPreservesContent(init);
      assert InputContents(services) == InputContents(init) + [c];
      if IsWelfare(last) {
        var t := Tagged(last, Device);
        assert WelfareServices(services) == WelfareServices(init) + [t];
        assert MobilityServices(services) == MobilityServices(init) + [];
        assert MobilityServices(init) + [] == MobilityServices(init);
        ContentsAppend(WelfareServices(init), [t]);
        assert Contents([t]) == [c];
      } else {
        var t := Tagged(last, Mobility);
        assert MobilityServices(services) == MobilityServices(init) + [t];
        assert WelfareServices(services) == WelfareServices(init) + [];
        assert WelfareServices(init) + [] == WelfareServices(init);
        ContentsAppend(MobilityServices(init), [t]);
        assert Contents([t]) == [c];
      }
    }
  }

  /** The caption under the device grade: three distinct captions, one per intensity. */
  function UsageIntensityCaption(u: UsageIntensity): (s: string)
    ensures s == "사용량 높음" <==> u == High
    ensures s == "보통 사용" <==> u == Medium
    ensures s == "사용량 적음" <==> u == Low
  {
    match u
    case High => "사용량 높음"
    case Medium => "보통 사용"
    case Low => "사용량 적음"
  }

  /** Captions tell the intensities apart. */
  lemma UsageIntensityCaptionInjective(u: UsageIntensity, v: UsageIntensity)
    ensures UsageIntensityCaption(u) == UsageIntensityCaption(v) ==> u == v
  {
  }

  datatype Direction = Up | Down

  datatype DeltaBadge = DeltaBadge(direction: Direction, magnitude: real)

  /** The week-over-week badge: shown iff the delta is non-zero, pointing by its sign, sized by its absolute value. */
  function DeltaBadgeOf(delta: real): (b: Option<DeltaBadge>)
    ensures b.Some? <==> delta != 0.0
    ensures b.Some? ==> (b.value.direction == Up <==> delta > 0.0)
    ensures b.Some? ==> b.value.magnitude > 0.0 && (b.value.magnitude == delta || b.value.magnitude == -delta)
  {
    if delta == 0.0 then None
    else Some(DeltaBadge(if delta > 0.0 then Up else Down, if delta > 0.0 then delta else -delta))
  }

  /** On the page the previous distance is never supplied, so the delta is the week's whole distance:
      the badge shows an upward arrow exactly when the user moved at all, and the caption follows the
      distance thresholds of the classifier. */
  lemma PageBadgeAndCaption(r: WelfareReport)
    ensures var d := DualAxisData(Some(r)).value;
      && d.userMobility.weeklyKmDelta == r.metadata.weeklyKm
      && (DeltaBadgeOf(d.userMobility.weeklyKmDelta).Some? <==> r.metadata.weeklyKm != 0.0)
      && (r.metadata.weeklyKm > 0.0 ==> DeltaBadgeOf(d.userMobility.weeklyKmDelta) == Some(DeltaBadge(Up, r.metadata.weeklyKm)))
      && (UsageIntensityCaption(d.deviceCondition.usageIntensity) == "사용량 높음" <==> r.metadata.weeklyKm >= 50.0)
  {
  }
}
